=== FILE: README.md ===
# Organisation membership and authorization rules, in Dafny

This project models the authorization and membership rules of the platform's
database schema. The schema is written in SurrealQL, inside TypeScript
strings. Each rule is a pure decision over a small store of organisations,
users and `manages` edges. An edge relates a user to an organisation and
carries a role, a `confirmed` flag and a `public` flag. The model covers four
parts:

- **Effective managers** (`Managers`). The computed `managers` field lists an
  organisation's confirmed direct managers, untagged. After them comes the
  already computed list of the organisation it is `part_of`. Each entry of
  that inherited list keeps its `org` tag, or gets the parent as its tag if it
  has none. Nothing is deduplicated. The recursion is bounded by a depth
  parameter. `EffectiveManagers` uses 16 levels, the nesting limit the schema
  comment names.
  The main theorem, `ManagersReference`, proves that this recursion equals a
  flat reference definition. The reference is `o`'s direct managers, then for
  each ancestor (nearest first) that ancestor's direct managers tagged with the
  ancestor. So a tag always names the organisation whose edge produced the
  entry: the first organisation the entry was inherited through.
- **Permissions** (`Manages`, `Organisation`, `Users`). Each PERMISSIONS clause
  of the three tables is a predicate over the store and the session (`Actor`).
  For each clause that reads a `managers` list (edge management and edge
  select, organisation select, update and delete, and the user clause) a
  lemma restates it, both directions, in terms of confirmed edges on the
  organisation's ancestor chain.
- **Field value rules**. These are `confirmed` (monotone, set only by the
  edge's own user or a system write), `role`, `slug`, `tier`, `part_of`, the
  admin-only `logo`, `banner` and `profile_picture`, `created` / `updated`, the
  `name` assertion on users, and the unique indexes on (in, out) and on
  `email`.
- **Audit log** (`Audit`). A CREATE or DELETE writes one entry without a
  change payload. An UPDATE writes one entry per watched field whose value
  changed, in field order.

Writes are total functions that return `Result`. The new store (and the log
entries) are returned on success. On failure the result names the rule that
refused the write: `NotFound`, `RecordExists`, `PermissionDenied`,
`InvalidField` or `IndexViolation`. When several rules would refuse the same
write, the model reports the first in its own order: the record's existence,
then the table permission, then the fields in schema order, then the unique
index. The engine may report a different one of them.

Reading of the source that the model fixes:

- Sessions are `SystemSession` (no `$scope`, no `$auth`), `AdminSession` and
  `UserSession`. The engine evaluates PERMISSIONS clauses only for scoped
  sessions, so the write functions skip them for `SystemSession`. The value
  clauses test `not($scope)` / `!$auth` themselves, and the model keeps those
  tests.
- The organisation and user clauses read `managers[...].id`. The model takes
  that `id` to be the entry's `user` (see "Left out").
- The organisation rules compare the role against `["owner",
  "adminstrator"]`, which is misspelled. The model keeps the spelling.
  `Organisation.OrgManagerRoleIsOwner` shows that, as a result, only owners
  pass. Administrators never update or delete an organisation, and never
  attach one to a parent.
- The comment above the `manages` clauses says administrators have rights
  "except for top-level". The clauses themselves test the entry's `org` tag,
  so an administrator acts only through an inherited entry. The model follows
  the clauses: a direct administrator of a nested organisation has no rights
  over its edges (`Manages.CanManageEdgesIff`).
- An `admin` session's `$auth.id` is never a user record. So it passes none of
  the `manages` create, update and delete clauses, and the select clause only
  for edges that are public and confirmed. Its writes to `confirmed` keep the
  field false unless it was already true.
- Updates merge, as the application's own writes do (`surreal.merge`): a
  written field replaces the stored value and an absent field keeps it. A
  create starts from an empty record, so an absent `name` or `email` is a type
  error there.
- Field rules run in schema order, each on the record as merged so far. So the
  `slug` rule, which comes before `tier`, reads the tier as written, before
  the tier's own ASSERT and permission run (`Organisation.SlugFollowsWrittenTier`).
  A consequence: a user-scope update of a record on an unpaid tier resets a
  custom slug to the key, even when it writes no slug
  (`Organisation.UnpaidUserUpdateResetsSlug`).
- An ASSERT is checked before the field's PERMISSIONS, and a refused field
  permission keeps the stored value. So a user-scope session that sends an
  invalid tier gets an error, while a valid tier it sends is ignored.
- `part_of` has an update permission of its own, limited to the admin scope.
  So a user-scope session can choose a parent only when it creates an
  organisation.
- Deleting a user or an organisation also removes that record's edges, as the
  engine does for graph edges.

## Model

| member | source | states |
|---|---|---|
| Managers.Local | src/schema/resources/organisation.ts:74-77 | a direct entry exists exactly for each confirmed edge into the organisation, and it is untagged |
| Managers.LocalOnePerEdge | src/schema/resources/organisation.ts:74-77 | the direct list has exactly one entry per confirmed edge into the organisation: the projection neither merges nor repeats entries |
| Managers.Inherit | src/schema/resources/organisation.ts:81-83 | inherited entries keep user and role; an existing tag is kept, an untagged entry gets the parent |
| Managers.ManagersOf | src/schema/resources/organisation.ts:72-87 | a missing record has no managers, and a root organisation lists only its direct managers |
| Managers.ManagersSound | src/schema/resources/organisation.ts:74-83 | every entry is backed by a confirmed edge, in its role, into the existing organisation it names: its tag, or the record itself when untagged |
| Managers.EffectiveManagers | src/schema/resources/organisation.ts:53-57 | the field at the engine's nesting limit of 16 keeps the same backing: each entry's source organisation exists and holds a confirmed edge for it |
| Managers.InheritKeepsTags | src/schema/resources/organisation.ts:82-83 | retagging an inherited list again changes nothing: further ancestors never overwrite a tag |
| Managers.ManagersReference | src/schema/resources/organisation.ts:72-87 | the recursive field equals direct managers followed by each ancestor's direct managers tagged with that ancestor, nearest first |
| Managers.ManagersMembership | src/schema/resources/organisation.ts:74-86 | an entry is listed iff it is untagged and backed by a confirmed edge into the organisation, or tagged with an ancestor and backed by a confirmed edge into that ancestor |
| Managers.ManagersUnfold | src/schema/resources/organisation.ts:79-86 | one level: direct entries then the parent's list retagged; the length is the sum of the two |
| Managers.ManagersLength | src/schema/resources/organisation.ts:75-86 | nothing is deduplicated: the length is the number of direct managers of the organisation and all its ancestors |
| Managers.InheritedFromParent | src/schema/resources/organisation.ts:79-83 | a confirmed manager of the parent appears in the child's list, tagged with the parent |
| Managers.UnconfirmedNeverListed | src/schema/resources/organisation.ts:75 | under the unique (in, out) index an unconfirmed edge is the source of no entry in any organisation's list |
| Managers.ManagersSaturate | src/schema/resources/organisation.ts:53-57 | when the parent chain ends before the depth bound, a larger bound yields the same list |
| Schema.ParseRole | src/schema/relations/manages.ts:22-23 | a role string is accepted iff it is one of owner, administrator, event_manager, event_viewer, and then names that role |
| Schema.ParseTier | src/schema/resources/organisation.ts:46-47 | a tier string is accepted iff it is one of free, basic, business, enterprise, and then names that tier |
| Schema.FindEdgeUnique | src/schema/relations/manages.ts:30 | with the unique index in force, the edge found for a (user, organisation) pair is the only one |
| Schema.FilterKeepsIndex | src/schema/relations/manages.ts:30 | removing edges keeps the unique (in, out) index |
| Manages.ResolveConfirmed | src/schema/relations/manages.ts:20 | `confirmed` never goes from true to false; it turns true only on a request for true by the edge's own user or a system write |
| Manages.CanManageEdges | src/schema/relations/manages.ts:7-11 | the create clause and the manager half of the update/delete clause: a user session listed with an owner entry, or an inherited administrator entry |
| Manages.SelectAllowed | src/schema/relations/manages.ts:12-15 | the select clause: public and confirmed, the edge's own user, or listed at all |
| Manages.ManagerRightsIff | src/schema/relations/manages.ts:4-11 | at any depth bound, a user passes the rights test iff it is a confirmed owner of the organisation, or a confirmed owner or administrator of an ancestor within the bound |
| Manages.CanManageEdgesIff | src/schema/relations/manages.ts:4-8 | a user has rights over an organisation's edges iff it is a confirmed owner there, or a confirmed owner or administrator of an ancestor |
| Manages.RootOnlyOwnersManage | src/schema/relations/manages.ts:5-8 | at a root organisation exactly its confirmed owners have those rights; administrators never do |
| Manages.SelectAllowedIff | src/schema/relations/manages.ts:12-15 | a user may see an edge iff it is public and confirmed, is the user's own, or the user is confirmed on the organisation or an ancestor |
| Manages.UpdateImpliesSelect | src/schema/relations/manages.ts:9-15 | whoever may update or delete an edge may also select it |
| Manages.CreateEdge | src/schema/relations/manages.ts:7-30 | creation succeeds iff the session passes the create clause, the role is valid and no edge for the pair exists; the new edge is confirmed or public only when explicitly requested, and confirmed only when the edge's user or a system write requests it |
| Manages.ResolveRole | src/schema/relations/manages.ts:22-25 | an invalid role is an error; the stored role changes only to the requested one and only for a session with manager rights |
| Manages.UpdateEdge | src/schema/relations/manages.ts:9-25 | an existing edge is updated iff the session passes the update clause and any requested role is valid; only that edge changes; `confirmed` becomes true iff it was true or the edge's user (or a system write) sends true; `public` takes the sent value; a requested role is applied under manager rights; otherwise, and always when no role is sent, the stored role is kept; `created` is kept |
| Manages.AcceptConfirms | src/schema/relations/manages.ts:9-20 | the invited user's own update with `confirmed = true` succeeds and confirms the edge |
| Manages.RolelessUpdateKeepsRole | src/schema/relations/manages.ts:22-25 | an update that sends no role, for instance one that sends only `confirmed`, keeps the stored role whoever sends it |
| Manages.DeleteEdge | src/schema/relations/manages.ts:9-11 | an existing edge is deleted iff the session passes the delete clause (its own user or a manager); exactly that edge is removed and no edge for the pair remains |
| Manages.LeaveOrRevoke | src/schema/relations/manages.ts:9-11 | a user-scope session deletes an existing edge iff it is the edge's user or holds manager rights over the organisation |
| Manages.CreateEdgeKeepsIndex | src/schema/relations/manages.ts:30 | a successful create keeps the unique (in, out) index |
| Manages.UpdateEdgeKeepsIndex | src/schema/relations/manages.ts:30 | a successful update keeps the unique (in, out) index |
| Manages.DeleteEdgeKeepsIndex | src/schema/relations/manages.ts:30 | a successful delete keeps the unique (in, out) index |
| Organisation.OrgManagerRoleIsOwner | src/schema/resources/organisation.ts:13 | the misspelled role list admits exactly the owner role |
| Organisation.SelectAllowed | src/schema/resources/organisation.ts:8-10 | the select clause: admin scope, or a user listed among the managers |
| Organisation.UpdateAllowed | src/schema/resources/organisation.ts:11-13 | the update clause: admin scope, or a user listed with an owner or "adminstrator" entry |
| Organisation.DeleteAllowed | src/schema/resources/organisation.ts:14-16 | the delete clause: as update, but the entry must be inherited |
| Organisation.ListsOrgManagerIff | src/schema/resources/organisation.ts:11-16 | at any depth bound, a user passes the update test iff it is a confirmed owner of the organisation or an ancestor within the bound, and the delete test iff it is a confirmed owner of such an ancestor |
| Organisation.SelectAllowedIff | src/schema/resources/organisation.ts:8-10 | a user may select an organisation iff it holds a confirmed edge, in any role, on it or one of its ancestors |
| Organisation.RootNotDeletableByUsers | src/schema/resources/organisation.ts:14-16 | no user-scope session may delete a root organisation |
| Organisation.ResolveSlug | src/schema/resources/organisation.ts:31-44 | absent: the key; empty: the stored slug or the key; a non-empty value is taken for a trusted session or a business/enterprise tier, and is otherwise replaced by the key even when it equals the stored slug; any other outcome is the written value and needs trust or a paid tier |
| Organisation.SlugNeverEmpty | src/schema/resources/organisation.ts:33-44 | the slug is never empty when the key and the stored slug are not |
| Organisation.ResolveTier | src/schema/resources/organisation.ts:46-51 | an unknown tier is an error; absent means the default free; the tier differs from the stored one (default free) only when a trusted session requested that tier |
| Organisation.ResolvePartOf | src/schema/resources/organisation.ts:59-67 | the parent becomes `value ?? before` for a trusted session or a manager of the requested parent, and stays `before` otherwise |
| Organisation.PartOfNeedsParentOwner | src/schema/resources/organisation.ts:61-64 | a user-scope session sets a parent only if it is a confirmed owner of that parent or one of its ancestors |
| Organisation.ResolveOrg | src/schema/resources/organisation.ts:18-90 | a write succeeds iff name and email are present, the email passes its check and the tier is known; written plain fields are stored and absent ones kept; a slug other than the key or the stored one was written and needs trust or a paid tier as written; tier, logo and banner change only for trusted sessions (or on create); a parent is set only by a trusted session or, on create, by an owner of the parent; `created` is kept and `updated` is now |
| Organisation.SlugFollowsWrittenTier | src/schema/resources/organisation.ts:31-51 | a user-scope update that writes a non-empty slug with a business or enterprise tier keeps the slug, while the tier stays as stored |
| Organisation.UnpaidUserUpdateResetsSlug | src/schema/resources/organisation.ts:31-44 | a user-scope update of a record on an unpaid tier that writes no tier resets a non-empty slug to the key |
| Organisation.OrgUpdateLog | src/schema/resources/organisation.ts:148-193 | one entry per changed field among name, description, website, email, none if none changed |
| Organisation.OrgUpdateLogEntries | src/schema/resources/organisation.ts:150-192 | the entry for each watched field exists iff that field changed, carrying the old and new value |
| Organisation.CreateOrganisation | src/schema/resources/organisation.ts:7-90 | creation succeeds iff the key is free, the session is admin, user or system, and the fields are valid; only that record is added, as the field rules resolve it; a slug other than the key, a tier other than free and a parent each need the session's right to set them; one CREATE entry without payload |
| Organisation.CreateUnderParentNeedsOwner | src/schema/resources/organisation.ts:59-67 | a user-scope session that is not a confirmed owner of the requested parent or of any of its ancestors creates the organisation without a parent |
| Organisation.UpdateOrganisation | src/schema/resources/organisation.ts:11-13 | an existing record is updated iff the session passes the update clause (admin scope always does) and the fields are valid; only that record changes, as the field rules resolve it; the log is the field diff; a user-scope session keeps parent, tier, logo and banner |
| Organisation.DeleteOrganisation | src/schema/resources/organisation.ts:14-16 | an existing record is deleted iff the session passes the delete clause (admin scope always does); the record and its incoming edges go, with exactly one DELETE entry without payload |
| Organisation.DeleteOrganisationKeepsStore | src/schema/resources/organisation.ts:14-16 | deleting keeps the unique (in, out) index and leaves no edge pointing at a missing record |
| Organisation.CreateThenDeleteOrganisation | src/schema/resources/organisation.ts:130-146 | creating an organisation and deleting it again restores the store exactly, when no edge pointed at a missing record |
| Words.SplitTwo | src/schema/user.ts:18 | a string splits into more than one word iff two non-white characters have white space between them |
| Words.NameAccepted | src/schema/user.ts:18 | a name is accepted iff it has two words separated by white space |
| Users.AccessAllowed | src/schema/user.ts:7-14 | the select/update/delete clause: admin scope, or the user itself, or a user sharing an organisation's managers list |
| Users.AccessAllowedIff | src/schema/user.ts:7-14 | the user clause holds iff the session is an admin, or is the target, or is a user confirmed (in any role) on the ancestor chain of an organisation on whose chain the target is confirmed too |
| Users.ShareIff | src/schema/user.ts:12 | at any depth bound, some organisation lists both users iff both are confirmed (in any role) on that organisation's ancestor chain |
| Managers.ListsUserIff | src/schema/user.ts:12 | at any depth bound, an organisation lists a user iff the user has a confirmed edge, in any role, on it or one of its ancestors within the bound |
| Users.ColleaguesAccessEachOther | src/schema/user.ts:7-14 | two users confirmed on the same organisation may each access the other's record |
| Users.LoneUserListedNowhere | src/schema/user.ts:12 | a user without any confirmed edge is listed by no organisation's managers |
| Users.LoneUserReachesOnlySelf | src/schema/user.ts:7-14 | a user without any confirmed edge reaches only its own record |
| Users.UserUpdateLog | src/schema/user.ts:64-98 | one entry per changed field among name, email, profile_picture; other fields are never logged |
| Users.UserUpdateLogEntries | src/schema/user.ts:66-97 | the entry for each watched field exists iff that field changed, carrying the old and new value |
| Users.CreateUser | src/schema/user.ts:15-29 | creation succeeds iff the key is free, the session is admin or system, a two-word name and a valid email not taken are given; the stored record and one CREATE entry |
| Users.UpdateUser | src/schema/user.ts:5-29 | an existing user is updated iff the session passes the access clause and the merged name has two words and the merged email is valid and not taken; written fields are stored and absent ones kept; `created` is kept; the picture changes only for trusted sessions; the log is the field diff |
| Users.DeleteUser | src/schema/user.ts:7-14 | an existing user is deleted iff the session passes the access clause; the record and its edges go, with one DELETE entry |
| Users.CreateUserKeepsEmailsUnique | src/schema/user.ts:29 | creating keeps emails unique, and a second user with a taken email is refused |
| Users.UpdateUserKeepsEmailsUnique | src/schema/user.ts:29 | updating keeps emails unique |
| Users.DeleteUserKeepsStore | src/schema/user.ts:7-29 | deleting keeps both unique indexes and leaves no edge pointing at a missing record |
| Users.CreateThenDeleteUser | src/schema/user.ts:15-62 | creating a user and deleting it again restores the store exactly, when no edge pointed at a missing record |
| Audit.DiffEntries | src/schema/resources/organisation.ts:148-193 | the generic diff writes an entry for a field iff the field is watched and its value changed |

## Left out

- Magic-link sign-in and the token service (`src/app/(api)/api/auth/magic-link/route.ts`): they are not part of the schema rules modelled here.
- The `manages` log event: it calls `fn::log::generate::any::batch`, whose body is not part of this model.
- Engine semantics: event triggering, transactions, `<future>` re-evaluation, and the `type::thing('puborg', …)` rewrite. The tag is an optional organisation id.
- Beyond 16 levels of nesting the engine fails; `EffectiveManagers` stops inheriting there instead.
- The order in which the engine returns edges: the store keeps edges in a sequence, and that order is the order of direct managers.
- The sub-selects inside the `part_of` and user clauses run under the session's own select permission; the model reads the managers directly.
- `time::now()` is the `now` parameter. `string::is::email` and `is::email` are the `isEmail` parameter.
- The Zod schemas, the constant `type` field (`meta::tb(id)`) and the UI components: they hold no decision logic.
- Cycles in `part_of`: the source does not reject them, and the depth bound keeps the model total on them.
- Slug uniqueness: the schema defines no index on `slug`, so two organisations may share one.
- Manages.CreateEdge: the create clause is evaluated against the store before the new edge is added; whether the engine counts the new edge is not modelled.
- Organisation.ListsOrgManager, Organisation.SelectAllowed, Users.ShareOrganisation: the clauses read `managers[...].id` and `managers.*.id`, while each entry is built with only `role`, `user` and `org`. The model reads `.id` as the entry's `user`; this is an assumption about the engine that is not checked. Read literally, the projection is NONE for every entry and no user-scope session would pass these clauses.
- Organisation.CreateOrganisation: a create by a user-scope session stores tier free, the field's DEFAULT. The engine may instead leave the field empty, since the refused create permission has no stored value to restore. That reading is not modelled.
- Organisation.ResolveOrg, Users.UpdateUser: a field can be cleared only by writing an explicit NONE, which the input type cannot express; an absent field always keeps its stored value.

=== FILE: audit.dfy ===
/** The `log` table the CREATE / DELETE / UPDATE events write to, and the
    field-by-field comparison the UPDATE events perform. */
module Audit {
  import opened Common

  datatype Event = Create | Update | Delete

  /** The record a log entry refers to. */
  datatype Ref = OrgRef(org: OrgId) | UserRef(user: UserId)

  /** The `change` payload of an UPDATE entry. */
  datatype Change = Change(field: string, before: Option<string>, after: Option<string>)

  datatype LogEntry = LogEntry(record: Ref, event: Event, change: Option<Change>)

  /** One watched field of an UPDATE: its name and its value before and after. */
  datatype Watched = Watched(field: string, before: Option<string>, after: Option<string>)

  /** The single entry a CREATE event writes. */
  function CreateLog(record: Ref): seq<LogEntry>
  {
    [LogEntry(record, Create, None)]
  }

  /** The single entry a DELETE event writes. */
  function DeleteLog(record: Ref): seq<LogEntry>
  {
    [LogEntry(record, Delete, None)]
  }

  /** Whether a watched field's value differs (`$before.f != $after.f`). */
  predicate Changed(w: Watched)
  {
    w.before != w.after
  }

  /** The UPDATE event body: one entry per watched field whose value
      changed, in the order the fields are watched. */
  function Diff(record: Ref, watched: seq<Watched>): (r: seq<LogEntry>)
    ensures |r| <= |watched|
    ensures forall e :: e in r ==>
      e.record == record && e.event == Update && e.change.Some?
    ensures (forall i :: 0 <= i < |watched| ==> !Changed(watched[i])) ==> r == []
  {
    if watched == [] then []
    else
      var w := watched[0];
      var rest := Diff(record, watched[1..]);
      if Changed(w) then [LogEntry(record, Update, Some(Change(w.field, w.before, w.after)))] + rest
      else rest
  }

  /** An entry is written for a field exactly when that field is watched
      and its value changed, and it carries both values. */
  lemma {:induction false} DiffEntries(record: Ref, watched: seq<Watched>, f: string, b: Option<string>, a: Option<string>)
    ensures LogEntry(record, Update, Some(Change(f, b, a))) in Diff(record, watched)
        <==> Watched(f, b, a) in watched && b != a
  {
    if watched != [] {
      DiffEntries(record, watched[1..], f, b, a);
      assert watched == [watched[0]] + watched[1..];
    }
  }

  /** Diff works field by field: the first watched field contributes its
      entry (if it changed) ahead of the entries of the others. */
  lemma DiffCons(record: Ref, w: Watched, rest: seq<Watched>)
    ensures Diff(record, [w] + rest) ==
      (if Changed(w) then [LogEntry(record, Update, Some(Change(w.field, w.before, w.after)))] else []) +
      Diff(record, rest)
  {
    assert ([w] + rest)[1..] == rest;
  }
}

=== FILE: common.dfy ===
/** Shared vocabulary of the schema model: optional values, outcomes of a
    write, record identifiers and the session (actor) a query runs under. */
module Common {

  /** A field or parameter that may hold NONE. */
  datatype Option<+T> = None | Some(value: T) {

    /** `x ?? fallback` where the fallback is a plain value. */
    function ValueOr(fallback: T): T
    {
      if Some? then value else fallback
    }

    /** `x ?? y` where `y` may itself be NONE. */
    function OrElse(fallback: Option<T>): Option<T>
    {
      if Some? then this else fallback
    }
  }

  /** Why the database refuses a write. */
  datatype Error =
    | NotFound                     // the record to update or delete does not exist
    | RecordExists                 // a CREATE names an id that is already taken
    | PermissionDenied             // a table PERMISSIONS clause evaluated to false
    | InvalidField(field: string)  // a field's ASSERT (or enum check) failed
    | IndexViolation(index: string) // a UNIQUE index already holds the value

  /** The outcome of a write: the new value, or the error that aborts it. */
  datatype Result<+T> = Ok(value: T) | Err(error: Error)

  /** Record keys. An organisation key is also its default slug. */
  type OrgId = string
  type UserId = string

  /** A point in time, as handed in by the caller in place of `time::now()`. */
  type Time = nat

  /** The session a query runs in: `$scope` and `$auth`.
      A system session has neither; an admin session authenticates an
      `admin` record, which is never a `user` record. */
  datatype Actor =
    | SystemSession
    | AdminSession(admin: string)
    | UserSession(user: UserId)

  /** `$scope = 'admin' OR not($scope)`: the sessions the value rules trust. */
  predicate Trusted(a: Actor)
  {
    a.AdminSession? || a.SystemSession?
  }

  /** Whether `$auth.id` is the user record `u`. */
  predicate IsUser(a: Actor, u: UserId)
  {
    a == UserSession(u)
  }

  /** The database checks PERMISSIONS clauses only for scoped sessions. */
  predicate ChecksPermissions(a: Actor)
  {
    !a.SystemSession?
  }
}

=== FILE: managers.dfy ===
/** The computed `managers` field of an organisation: its confirmed direct
    managers, followed by the already computed managers of the organisation
    it is `part_of`, each inherited entry tagged with the organisation it
    was inherited through unless it already carries a tag. */
module Managers {
  import opened Common
  import opened Schema

  /** One element of `managers`: the user, the role of its edge, and the
      `org` tag (NONE for a direct manager). */
  datatype Manager = Manager(user: UserId, role: Role, org: Option<OrgId>)

  /** The nesting depth the engine evaluates the recursive field to. */
  const MaxDepth: nat := 16

  /** Edge `e` is confirmed and gives user `u` role `r` on organisation `o`. */
  predicate Grants(e: Edge, u: UserId, o: OrgId, r: Role)
  {
    e.confirmed && Relates(e, u, o) && e.role == r
  }

  /** Some confirmed edge gives user `u` role `r` on organisation `o`. */
  predicate ConfirmedEdge(edges: seq<Edge>, u: UserId, o: OrgId, r: Role)
  {
    exists i :: 0 <= i < |edges| && Grants(edges[i], u, o, r)
  }

  /** `<-manages[?confirmed]` projected to `role, in AS user`: the
      confirmed edges into `o`, in edge order, untagged. */
  function Local(edges: seq<Edge>, o: OrgId): (r: seq<Manager>)
    ensures |r| <= |edges|
    ensures forall m :: m in r <==> m.org.None? && ConfirmedEdge(edges, m.user, o, m.role)
  {
    if edges == [] then []
    else
      var e := edges[0];
      var rest := Local(edges[1..], o);
      assert forall u, rl :: ConfirmedEdge(edges, u, o, rl) <==>
        (Grants(e, u, o, rl) || ConfirmedEdge(edges[1..], u, o, rl));
      if e.org == o && e.confirmed then [Manager(e.user, e.role, None)] + rest else rest
  }

  /** The positions of the confirmed edges into `o`. */
  ghost function ConfirmedInto(edges: seq<Edge>, o: OrgId): set<nat>
  {
    set i: nat | i < |edges| && edges[i].confirmed && edges[i].org == o
  }

  /** Every position moved one place on. */
  ghost function Shift(ps: set<nat>): set<nat>
  {
    set p | p in ps :: p + 1
  }

  lemma {:induction false} ShiftCard(ps: set<nat>)
    ensures |Shift(ps)| == |ps|
    decreases |ps|
  {
    if ps != {} {
      var p :| p in ps;
      ShiftCard(ps - {p});
      forall q | q in Shift(ps)
        ensures q in Shift(ps - {p}) + {p + 1}
      {
        var x :| x in ps && q == x + 1;
        if x != p {
          assert x in ps - {p};
        }
      }
      assert Shift(ps) == Shift(ps - {p}) + {p + 1};
    }
  }

  /** Dropping the first edge moves every other position one place back. */
  lemma ConfirmedIntoCons(edges: seq<Edge>, o: OrgId)
    requires edges != []
    ensures ConfirmedInto(edges, o) ==
      (if edges[0].confirmed && edges[0].org == o then {0} else {}) + Shift(ConfirmedInto(edges[1..], o))
  {
    var tail := ConfirmedInto(edges[1..], o);
    forall i | i in ConfirmedInto(edges, o) && i > 0
      ensures i in Shift(tail)
    {
      assert edges[1..][i - 1] == edges[i];
      assert i - 1 in tail;
    }
    forall i | i in Shift(tail)
      ensures i in ConfirmedInto(edges, o)
    {
      var p :| p in tail && i == p + 1;
      assert edges[1..][p] == edges[i];
    }
  }

  /** The projection neither merges nor repeats entries: `Local` has
      exactly one entry per confirmed edge into `o`. */
  lemma {:induction false} LocalOnePerEdge(edges: seq<Edge>, o: OrgId)
    ensures |Local(edges, o)| == |ConfirmedInto(edges, o)|
  {
    if edges != [] {
      ConfirmedIntoCons(edges, o);
      LocalOnePerEdge(edges[1..], o);
      ShiftCard(ConfirmedInto(edges[1..], o));
    }
  }

  /** `org OR $part_of`: keep an existing tag, otherwise tag with `parent`. */
  function Retag(m: Manager, parent: OrgId): Manager
  {
    m.(org := Some(m.org.ValueOr(parent)))
  }

  /** The inherited list: the parent's managers, each retagged. */
  function Inherit(ms: seq<Manager>, parent: OrgId): (r: seq<Manager>)
    ensures |r| == |ms|
    ensures forall i :: 0 <= i < |r| ==>
      r[i].user == ms[i].user && r[i].role == ms[i].role && r[i].org.Some?
    ensures forall i :: 0 <= i < |r| && ms[i].org.Some? ==> r[i] == ms[i]
    ensures forall i :: 0 <= i < |r| && ms[i].org.None? ==> r[i].org == Some(parent)
  {
    seq(|ms|, i requires 0 <= i < |ms| => Retag(ms[i], parent))
  }

  /** The `managers` field of `o`, with `depth` further levels of nesting
      allowed. A record that does not exist has no managers; a parent that
      does not exist contributes nothing (`?? []`). A root organisation
      lists only its direct managers. */
  function ManagersOf(s: Store, o: OrgId, depth: nat): (r: seq<Manager>)
    ensures o !in s.orgs ==> r == []
    ensures o in s.orgs && s.orgs[o].partOf.None? ==> r == Local(s.edges, o)
    decreases depth
  {
    if o !in s.orgs then []
    else
      var local := Local(s.edges, o);
      match s.orgs[o].partOf
      case None => local
      case Some(p) => if depth == 0 then local else local + Inherit(ManagersOf(s, p, depth - 1), p)
  }

  /** The `managers` field as the engine evaluates it: every entry is backed
      by a confirmed edge into `o` or into the existing organisation its tag
      names. */
  function EffectiveManagers(s: Store, o: OrgId): (r: seq<Manager>)
    ensures o !in s.orgs ==> r == []
    ensures forall m :: m in r ==>
      SourceOrg(o, m) in s.orgs && ConfirmedEdge(s.edges, m.user, SourceOrg(o, m), m.role)
  {
    ManagersSound(s, o, MaxDepth);
    ManagersOf(s, o, MaxDepth)
  }

  /** `managers.*.user` (read by the clauses as `managers.*.id`) of a list
      contains user `u`. */
  predicate ListsUser(ms: seq<Manager>, u: UserId)
  {
    exists m :: m in ms && m.user == u
  }

  /** The existing organisations above `o`, nearest first, at most `depth`. */
  function Ancestors(s: Store, o: OrgId, depth: nat): (r: seq<OrgId>)
    ensures |r| <= depth
    ensures forall a :: a in r ==> a in s.orgs
    ensures r != [] ==> o in s.orgs && s.orgs[o].partOf == Some(r[0])
    decreases depth
  {
    if o !in s.orgs || depth == 0 then []
    else
      match s.orgs[o].partOf
      case None => []
      case Some(p) => if p in s.orgs then [p] + Ancestors(s, p, depth - 1) else []
  }

  /** Reference definition: the direct managers of every ancestor, each
      tagged with that ancestor, nearest ancestor first. */
  function FromAncestors(edges: seq<Edge>, anc: seq<OrgId>): (r: seq<Manager>)
    ensures forall i :: 0 <= i < |r| ==> r[i].org.Some?
    ensures forall m :: m in r <==>
      m.org.Some? && m.org.value in anc && ConfirmedEdge(edges, m.user, m.org.value, m.role)
  {
    if anc == [] then []
    else
      TaggedLocal(edges, anc[0]);
      Inherit(Local(edges, anc[0]), anc[0]) + FromAncestors(edges, anc[1..])
  }

  /** The reference form of `o`'s managers list: its direct managers, then
      those of each ancestor the depth reaches, tagged with that ancestor.
      A record that does not exist has none. */
  function Reference(s: Store, o: OrgId, depth: nat): seq<Manager>
  {
    if o in s.orgs then Local(s.edges, o) + FromAncestors(s.edges, Ancestors(s, o, depth)) else []
  }

  /** Total number of direct managers over a list of organisations. */
  function LocalCount(edges: seq<Edge>, orgs: seq<OrgId>): nat
  {
    if orgs == [] then 0 else |Local(edges, orgs[0])| + LocalCount(edges, orgs[1..])
  }

  /** The organisation an entry was granted at: its tag, or `o` itself. */
  function SourceOrg(o: OrgId, m: Manager): OrgId
  {
    m.org.ValueOr(o)
  }

  /** Direct managers of `a`, tagged with `a`, are exactly the confirmed
      edges into `a`. */
  lemma TaggedLocal(edges: seq<Edge>, a: OrgId)
    ensures forall m :: m in Inherit(Local(edges, a), a) <==>
      m.org == Some(a) && ConfirmedEdge(edges, m.user, a, m.role)
  {
    var l := Local(edges, a);
    var t := Inherit(l, a);
    forall m: Manager | m.org == Some(a) && ConfirmedEdge(edges, m.user, a, m.role)
      ensures m in t
    {
      var x := Manager(m.user, m.role, None);
      assert x in l;
      var i :| 0 <= i < |l| && l[i] == x;
      assert t[i] == m;
    }
  }

  lemma InheritConcat(a: seq<Manager>, b: seq<Manager>, p: OrgId)
    ensures Inherit(a + b, p) == Inherit(a, p) + Inherit(b, p)
  {
  }

  /** Once every entry is tagged, no further ancestor changes a tag: tags
      record the first organisation an entry was inherited through. */
  lemma InheritKeepsTags(ms: seq<Manager>, p: OrgId, q: OrgId)
    ensures Inherit(Inherit(ms, p), q) == Inherit(ms, p)
  {
  }

  lemma InheritTagged(ms: seq<Manager>, p: OrgId)
    requires forall i :: 0 <= i < |ms| ==> ms[i].org.Some?
    ensures Inherit(ms, p) == ms
  {
  }

  /** The recursive field equals the reference definition: `o`'s direct
      managers followed by each ancestor's direct managers tagged with
      that ancestor. */
  lemma {:induction false} ManagersReference(s: Store, o: OrgId, depth: nat)
    ensures ManagersOf(s, o, depth) ==
      Reference(s, o, depth)
    decreases depth
  {
    if o in s.orgs && depth > 0 && s.orgs[o].partOf.Some? && s.orgs[o].partOf.value in s.orgs {
      var p := s.orgs[o].partOf.value;
      ManagersReference(s, p, depth - 1);
      ReferenceStep(s, o, p, depth);
    } else {
      ReferenceAtTop(s, o, depth);
    }
  }

  /** Where inheritance stops, the list is the direct managers alone (and
      a record that does not exist has none). */
  lemma ReferenceAtTop(s: Store, o: OrgId, depth: nat)
    requires o in s.orgs ==> depth == 0 || s.orgs[o].partOf.None? || s.orgs[o].partOf.value !in s.orgs
    ensures ManagersOf(s, o, depth) ==
      Reference(s, o, depth)
  {
    if o in s.orgs {
      assert Ancestors(s, o, depth) == [];
      assert Local(s.edges, o) + [] == Local(s.edges, o);
    }
  }

  /** One inductive step: the reference form of the parent's list, retagged
      and appended to the direct managers, is the reference form here. */
  lemma ReferenceStep(s: Store, o: OrgId, p: OrgId, depth: nat)
    requires o in s.orgs && s.orgs[o].partOf == Some(p) && p in s.orgs && depth > 0
    requires ManagersOf(s, p, depth - 1) ==
      Reference(s, p, depth - 1)
    ensures ManagersOf(s, o, depth) ==
      Reference(s, o, depth)
  {
    ManagersUnfold(s, o, p, depth);
    InheritSplit(Local(s.edges, p), FromAncestors(s.edges, Ancestors(s, p, depth - 1)), p);
    AncestorsStep(s, o, p, depth);
  }

  /** Retagging the parent's list in the reference form: its direct part is
      tagged with the parent, the rest is already tagged. */
  lemma InheritSplit(lp: seq<Manager>, up: seq<Manager>, p: OrgId)
    requires forall i :: 0 <= i < |up| ==> up[i].org.Some?
    ensures Inherit(lp + up, p) == Inherit(lp, p) + up
  {
    InheritConcat(lp, up, p);
    InheritTagged(up, p);
  }

  /** One step of the reference definition along the parent link. */
  lemma AncestorsStep(s: Store, o: OrgId, p: OrgId, depth: nat)
    requires o in s.orgs && s.orgs[o].partOf == Some(p) && p in s.orgs && depth > 0
    ensures FromAncestors(s.edges, Ancestors(s, o, depth)) ==
      Inherit(Local(s.edges, p), p) + FromAncestors(s.edges, Ancestors(s, p, depth - 1))
  {
    var anc := Ancestors(s, o, depth);
    assert anc == [p] + Ancestors(s, p, depth - 1);
    assert anc[1..] == Ancestors(s, p, depth - 1);
  }

  /** The entries of `managers` are exactly: an untagged entry per confirmed
      edge into `o`, and for each ancestor `a`, an entry tagged `a` per
      confirmed edge into `a`. An unconfirmed edge contributes nothing. */
  lemma ManagersMembership(s: Store, o: OrgId, depth: nat, m: Manager)
    ensures m in ManagersOf(s, o, depth) <==>
      o in s.orgs &&
      (if m.org.None? then ConfirmedEdge(s.edges, m.user, o, m.role)
       else m.org.value in Ancestors(s, o, depth) && ConfirmedEdge(s.edges, m.user, m.org.value, m.role))
  {
    ManagersReference(s, o, depth);
  }

  /** Every entry is backed by a confirmed edge, in the entry's role, into
      the existing organisation it names: its tag, or `o` when untagged. */
  lemma ManagersSound(s: Store, o: OrgId, depth: nat)
    ensures forall m :: m in ManagersOf(s, o, depth) ==>
      SourceOrg(o, m) in s.orgs && ConfirmedEdge(s.edges, m.user, SourceOrg(o, m), m.role)
  {
    forall m | m in ManagersOf(s, o, depth)
      ensures SourceOrg(o, m) in s.orgs && ConfirmedEdge(s.edges, m.user, SourceOrg(o, m), m.role)
    {
      ManagersMembership(s, o, depth, m);
    }
  }

  /** Nothing is deduplicated: the list is as long as the direct manager
      lists of `o` and all its ancestors together. */
  lemma {:induction false} ManagersLength(s: Store, o: OrgId, depth: nat)
    requires o in s.orgs
    ensures |ManagersOf(s, o, depth)| == |Local(s.edges, o)| + LocalCount(s.edges, Ancestors(s, o, depth))
  {
    ManagersReference(s, o, depth);
    FromAncestorsLength(s.edges, Ancestors(s, o, depth));
  }

  lemma {:induction false} FromAncestorsLength(edges: seq<Edge>, anc: seq<OrgId>)
    ensures |FromAncestors(edges, anc)| == LocalCount(edges, anc)
  {
    if anc != [] {
      FromAncestorsLength(edges, anc[1..]);
    }
  }

  /** One level of the recursion: the local entries, then the parent's
      list retagged, so the length is the sum of the two. */
  lemma ManagersUnfold(s: Store, o: OrgId, p: OrgId, depth: nat)
    requires o in s.orgs && s.orgs[o].partOf == Some(p) && depth > 0
    ensures ManagersOf(s, o, depth) == Local(s.edges, o) + Inherit(ManagersOf(s, p, depth - 1), p)
    ensures |ManagersOf(s, o, depth)| == |Local(s.edges, o)| + |ManagersOf(s, p, depth - 1)|
  {
  }

  /** A confirmed manager of the parent appears in the child's list,
      tagged with the parent. */
  lemma InheritedFromParent(s: Store, o: OrgId, p: OrgId, depth: nat, u: UserId, r: Role)
    requires o in s.orgs && s.orgs[o].partOf == Some(p) && p in s.orgs && depth > 0
    requires ConfirmedEdge(s.edges, u, p, r)
    ensures Manager(u, r, Some(p)) in ManagersOf(s, o, depth)
  {
    ManagersMembership(s, o, depth, Manager(u, r, Some(p)));
  }

  /** With the unique (in, out) index in force, an edge that is not
      confirmed is never the source of any entry in any organisation's
      managers. */
  lemma UnconfirmedNeverListed(s: Store, o: OrgId, depth: nat, i: nat, m: Manager)
    requires UniqueEdges(s.edges)
    requires i < |s.edges| && !s.edges[i].confirmed
    requires m in ManagersOf(s, o, depth) && m.user == s.edges[i].user
    ensures SourceOrg(o, m) != s.edges[i].org
  {
    ManagersMembership(s, o, depth, m);
    var a := SourceOrg(o, m);
    assert ConfirmedEdge(s.edges, m.user, a, m.role);
    var j :| 0 <= j < |s.edges| && Grants(s.edges[j], m.user, a, m.role);
    assert i != j;
  }

  /** Past the root the depth bound no longer matters: a chain that ends
      before the bound gives the same list under any larger bound. */
  lemma {:induction false} AncestorsSaturate(s: Store, o: OrgId, depth: nat, more: nat)
    requires |Ancestors(s, o, depth)| < depth <= more
    ensures Ancestors(s, o, more) == Ancestors(s, o, depth)
    decreases depth
  {
    if o in s.orgs && s.orgs[o].partOf.Some? && s.orgs[o].partOf.value in s.orgs {
      AncestorsSaturate(s, s.orgs[o].partOf.value, depth - 1, more - 1);
    }
  }

  lemma ManagersSaturate(s: Store, o: OrgId, depth: nat, more: nat)
    requires |Ancestors(s, o, depth)| < depth <= more
    ensures ManagersOf(s, o, more) == ManagersOf(s, o, depth)
  {
    AncestorsSaturate(s, o, depth, more);
    ManagersReference(s, o, depth);
    ManagersReference(s, o, more);
  }

  /** An organisation lists a user exactly when the user holds a confirmed
      edge, in any role, on the organisation or on one of its ancestors. */
  lemma ListsUserIff(s: Store, o: OrgId, u: UserId, depth: nat)
    ensures ListsUser(ManagersOf(s, o, depth), u) <==>
      o in s.orgs &&
      exists a, r :: a in [o] + Ancestors(s, o, depth) && ConfirmedEdge(s.edges, u, a, r)
  {
    var ms := ManagersOf(s, o, depth);
    if ListsUser(ms, u) {
      var m :| m in ms && m.user == u;
      ManagersMembership(s, o, depth, m);
      assert SourceOrg(o, m) in [o] + Ancestors(s, o, depth);
      assert ConfirmedEdge(s.edges, u, SourceOrg(o, m), m.role);
    }
    if o in s.orgs && exists a, r :: a in [o] + Ancestors(s, o, depth) && ConfirmedEdge(s.edges, u, a, r) {
      var a, r :| a in [o] + Ancestors(s, o, depth) && ConfirmedEdge(s.edges, u, a, r);
      var m := Manager(u, r, if a == o then None else Some(a));
      if a != o {
        assert a in Ancestors(s, o, depth);
      }
      ManagersMembership(s, o, depth, m);
    }
  }
}

=== FILE: manages.dfy ===
/** The `manages` relation table: who may create, change, remove or see a
    manage edge, how its `confirmed`, `public` and `role` fields take their
    values, and the unique (in, out) index. */
module Manages {
  import opened Common
  import opened Schema
  import opened Managers

  /** `role = "owner" OR (role = "administrator" AND org != NONE)`: an owner
      entry, or an administrator entry that was inherited. */
  predicate HasManagerRights(m: Manager)
  {
    m.role == Owner || (m.role == Administrator && m.org.Some?)
  }

  /** `managers[WHERE <rights>].user` of a list contains user `u`. */
  predicate ListsWithRights(ms: seq<Manager>, u: UserId)
  {
    exists m :: m in ms && m.user == u && HasManagerRights(m)
  }

  /** `$auth.id IN out.managers[WHERE <rights>].user` for organisation `o`. */
  predicate CanManageEdges(s: Store, a: Actor, o: OrgId)
  {
    a.UserSession? && ListsWithRights(EffectiveManagers(s, o), a.user)
  }

  /** `$auth.id IN out.managers.*.user`: the actor is listed at all. */
  predicate IsListedManager(s: Store, a: Actor, o: OrgId)
  {
    a.UserSession? && ListsUser(EffectiveManagers(s, o), a.user)
  }

  /** The `FOR create` clause. */
  predicate CreateAllowed(s: Store, a: Actor, o: OrgId)
  {
    CanManageEdges(s, a, o)
  }

  /** The `FOR update, delete` clause: the edge's own user, or a manager. */
  predicate UpdateAllowed(s: Store, a: Actor, e: Edge)
  {
    IsUser(a, e.user) || CanManageEdges(s, a, e.org)
  }

  /** The `FOR select` clause. */
  predicate SelectAllowed(s: Store, a: Actor, e: Edge)
  {
    (e.public && e.confirmed) || IsUser(a, e.user) || IsListedManager(s, a, e.org)
  }

  /** The `confirmed` VALUE clause: `$before || IF !$auth OR in.id == $auth.id
      { $value } ELSE { false }`. Once true it stays true, and only the
      edge's own user or a system write can turn it on. */
  function ResolveConfirmed(before: bool, value: bool, a: Actor, user: UserId): (r: bool)
    ensures before ==> r
    ensures r && !before ==> value && (a.SystemSession? || IsUser(a, user))
    ensures value && (a.SystemSession? || IsUser(a, user)) ==> r
  {
    before || (if a.SystemSession? || IsUser(a, user) then value else false)
  }

  /** At any depth bound, the rights test passes exactly for a confirmed
      owner of the organisation itself, or a confirmed owner or
      administrator of one of its ancestors within the bound. */
  lemma ManagerRightsIff(s: Store, u: UserId, o: OrgId, depth: nat)
    ensures ListsWithRights(ManagersOf(s, o, depth), u) <==>
      o in s.orgs &&
      (ConfirmedEdge(s.edges, u, o, Owner) ||
       exists a :: a in Ancestors(s, o, depth) &&
         (ConfirmedEdge(s.edges, u, a, Owner) || ConfirmedEdge(s.edges, u, a, Administrator)))
  {
    var ms := ManagersOf(s, o, depth);
    if ListsWithRights(ms, u) {
      var m :| m in ms && m.user == u && HasManagerRights(m);
      ManagersMembership(s, o, depth, m);
    }
    if o in s.orgs && ConfirmedEdge(s.edges, u, o, Owner) {
      ManagersMembership(s, o, depth, Manager(u, Owner, None));
    }
    if o in s.orgs &&
       (exists a :: a in Ancestors(s, o, depth) &&
                    (ConfirmedEdge(s.edges, u, a, Owner) || ConfirmedEdge(s.edges, u, a, Administrator))) {
      var a :| a in Ancestors(s, o, depth) &&
         (ConfirmedEdge(s.edges, u, a, Owner) || ConfirmedEdge(s.edges, u, a, Administrator));
      var r := if ConfirmedEdge(s.edges, u, a, Owner) then Owner else Administrator;
      ManagersMembership(s, o, depth, Manager(u, r, Some(a)));
    }
  }

  /** Who holds manager rights over an organisation's edges, in terms of
      edges: a confirmed owner of the organisation itself, or a confirmed
      owner or administrator of one of its ancestors. A direct
      administrator of the organisation has no such rights. */
  lemma CanManageEdgesIff(s: Store, u: UserId, o: OrgId)
    ensures CanManageEdges(s, UserSession(u), o) <==>
      o in s.orgs &&
      (ConfirmedEdge(s.edges, u, o, Owner) ||
       exists a :: a in Ancestors(s, o, MaxDepth) &&
         (ConfirmedEdge(s.edges, u, a, Owner) || ConfirmedEdge(s.edges, u, a, Administrator)))
  {
    ManagerRightsIff(s, u, o, MaxDepth);
  }

  /** At a root organisation only its confirmed owners manage edges:
      administrators never do. */
  lemma RootOnlyOwnersManage(s: Store, u: UserId, o: OrgId)
    requires o in s.orgs && s.orgs[o].partOf.None?
    ensures CanManageEdges(s, UserSession(u), o) <==> ConfirmedEdge(s.edges, u, o, Owner)
  {
    CanManageEdgesIff(s, u, o);
  }

  /** Whoever may change or remove an edge may also see it. */
  lemma UpdateImpliesSelect(s: Store, a: Actor, e: Edge)
    requires UpdateAllowed(s, a, e)
    ensures SelectAllowed(s, a, e)
  {
  }

  /** Who may see an edge, in terms of edges: anyone when it is public and
      confirmed, its own user, and any user confirmed, in any role, on the
      organisation or one of its ancestors. */
  lemma SelectAllowedIff(s: Store, v: UserId, e: Edge)
    ensures SelectAllowed(s, UserSession(v), e) <==>
      (e.public && e.confirmed) || v == e.user ||
      (e.org in s.orgs &&
       exists a, r :: a in [e.org] + Ancestors(s, e.org, MaxDepth) && ConfirmedEdge(s.edges, v, a, r))
  {
    ListsUserIff(s, e.org, v, MaxDepth);
  }

  /** What a client sends when it relates a user to an organisation. */
  datatype EdgeInput = EdgeInput(role: string, confirmed: Option<bool>, public: Option<bool>)

  /** `RELATE u->manages->o CONTENT input` at time `now`. */
  function CreateEdge(s: Store, a: Actor, u: UserId, o: OrgId, input: EdgeInput, now: Time): (r: Result<Store>)
    ensures r.Ok? <==>
      (!ChecksPermissions(a) || CreateAllowed(s, a, o)) &&
      input.role in RoleNames &&
      (forall i :: 0 <= i < |s.edges| ==> !Relates(s.edges[i], u, o))
    ensures r.Ok? ==>
      r.value.orgs == s.orgs && r.value.users == s.users &&
      |r.value.edges| == |s.edges| + 1 && r.value.edges[..|s.edges|] == s.edges
    ensures r.Ok? ==> var e := r.value.edges[|s.edges|];
      Relates(e, u, o) && RoleName(e.role) == input.role &&
      (e.confirmed <==> input.confirmed == Some(true) && (a.SystemSession? || IsUser(a, u))) &&
      (e.public <==> input.public == Some(true))
  {
    if ChecksPermissions(a) && !CreateAllowed(s, a, o) then Err(PermissionDenied)
    else
      match ParseRole(input.role)
      case None => Err(InvalidField("role"))
      case Some(role) =>
        if FindEdge(s.edges, u, o).Some? then Err(IndexViolation("unique_relation"))
        else
          var confirmed := ResolveConfirmed(false, input.confirmed.ValueOr(false), a, u);
          var e := Edge(u, o, role, confirmed, input.public.ValueOr(false), now, now);
          Ok(s.(edges := s.edges + [e]))
  }

  /** The fields a client may send when it updates an edge; NONE leaves
      the stored value as it is. */
  datatype EdgePatch = EdgePatch(role: Option<string>, confirmed: Option<bool>, public: Option<bool>)

  /** The `role` field on update: the ASSERT first, then the field's update
      permission, which keeps the stored role when it fails. */
  function ResolveRole(s: Store, a: Actor, before: Edge, requested: Option<string>): (r: Result<Role>)
    ensures r.Err? <==> requested.Some? && requested.value !in RoleNames
    ensures r.Ok? && r.value != before.role ==>
      requested.Some? && RoleName(r.value) == requested.value &&
      (!ChecksPermissions(a) || CanManageEdges(s, a, before.org))
  {
    match requested
    case None => Ok(before.role)
    case Some(name) =>
      match ParseRole(name)
      case None => Err(InvalidField("role"))
      case Some(role) =>
        if ChecksPermissions(a) && !CanManageEdges(s, a, before.org) then Ok(before.role) else Ok(role)
  }

  /** `UPDATE` (a merge) of the edge relating `u` to `o` at time `now`. */
  function UpdateEdge(s: Store, a: Actor, u: UserId, o: OrgId, patch: EdgePatch, now: Time): (r: Result<Store>)
    ensures FindEdge(s.edges, u, o).None? ==> r == Err(NotFound)
    ensures FindEdge(s.edges, u, o).Some? ==> var i := FindEdge(s.edges, u, o).value;
      (r.Ok? <==>
        (!ChecksPermissions(a) || UpdateAllowed(s, a, s.edges[i])) &&
        (patch.role.Some? ==> patch.role.value in RoleNames))
    ensures r.Ok? ==>
      r.value.orgs == s.orgs && r.value.users == s.users && |r.value.edges| == |s.edges| &&
      FindEdge(s.edges, u, o).Some?
    ensures r.Ok? ==> var i := FindEdge(s.edges, u, o).value;
      (forall j :: 0 <= j < |s.edges| && j != i ==> r.value.edges[j] == s.edges[j]) &&
      Relates(r.value.edges[i], u, o) &&
      r.value.edges[i].created == s.edges[i].created && r.value.edges[i].updated == now
    ensures r.Ok? ==> forall j :: 0 <= j < |s.edges| && s.edges[j].confirmed ==> r.value.edges[j].confirmed
    ensures r.Ok? ==> var i := FindEdge(s.edges, u, o).value; var e := r.value.edges[i];
      (e.confirmed <==>
        s.edges[i].confirmed || (patch.confirmed == Some(true) && (a.SystemSession? || IsUser(a, u)))) &&
      e.public == patch.public.ValueOr(s.edges[i].public)
    ensures r.Ok? ==> var i := FindEdge(s.edges, u, o).value; var e := r.value.edges[i];
      (e.role != s.edges[i].role ==> !ChecksPermissions(a) || CanManageEdges(s, a, o)) &&
      (patch.role.Some? && (!ChecksPermissions(a) || CanManageEdges(s, a, o)) ==>
        RoleName(e.role) == patch.role.value) &&
      (patch.role.None? ==> e.role == s.edges[i].role)
  {
    match FindEdge(s.edges, u, o)
    case None => Err(NotFound)
    case Some(i) =>
      var before := s.edges[i];
      if ChecksPermissions(a) && !UpdateAllowed(s, a, before) then Err(PermissionDenied)
      else
        match ResolveRole(s, a, before, patch.role)
        case Err(e) => Err(e)
        case Ok(role) =>
          var confirmed := ResolveConfirmed(before.confirmed, patch.confirmed.ValueOr(before.confirmed), a, u);
          var after := before.(role := role, confirmed := confirmed,
                               public := patch.public.ValueOr(before.public), updated := now);
          Ok(s.(edges := s.edges[i := after]))
  }

  /** The invitee accepts: its own update with `confirmed = true` succeeds
      and confirms the edge. */
  lemma AcceptConfirms(s: Store, u: UserId, o: OrgId, now: Time)
    requires FindEdge(s.edges, u, o).Some?
    ensures var r := UpdateEdge(s, UserSession(u), u, o, EdgePatch(None, Some(true), None), now);
      r.Ok? && r.value.edges[FindEdge(s.edges, u, o).value].confirmed
  {
  }

  /** A write that sends no role, for instance one that sends only
      `confirmed`, keeps the stored role whoever sends it, manager and
      system writes included. */
  lemma RolelessUpdateKeepsRole(s: Store, a: Actor, u: UserId, o: OrgId, patch: EdgePatch, now: Time)
    requires patch.role.None?
    requires UpdateEdge(s, a, u, o, patch, now).Ok?
    ensures UpdateEdge(s, a, u, o, patch, now).value.edges[FindEdge(s.edges, u, o).value].role ==
      s.edges[FindEdge(s.edges, u, o).value].role
  {
  }

  /** `DELETE` of the edge relating `u` to `o`. */
  function DeleteEdge(s: Store, a: Actor, u: UserId, o: OrgId): (r: Result<Store>)
    ensures FindEdge(s.edges, u, o).None? ==> r == Err(NotFound)
    ensures FindEdge(s.edges, u, o).Some? ==>
      (r.Ok? <==> !ChecksPermissions(a) || UpdateAllowed(s, a, s.edges[FindEdge(s.edges, u, o).value]))
    ensures r.Ok? ==> (r.value.orgs == s.orgs && r.value.users == s.users &&
      |r.value.edges| + 1 == |s.edges| &&
      multiset(r.value.edges) + multiset{s.edges[FindEdge(s.edges, u, o).value]} == multiset(s.edges))
    ensures r.Ok? && UniqueEdges(s.edges) ==> forall j :: 0 <= j < |r.value.edges| ==> !Relates(r.value.edges[j], u, o)
  {
    match FindEdge(s.edges, u, o)
    case None => Err(NotFound)
    case Some(i) =>
      if ChecksPermissions(a) && !UpdateAllowed(s, a, s.edges[i]) then Err(PermissionDenied)
      else
        RemoveAtUnique(s.edges, i);
        Ok(s.(edges := RemoveAt(s.edges, i)))
  }

  /** A user-scope session removes an existing edge exactly when it is the
      edge's own user (leaving) or holds manager rights over the
      organisation (revoking). */
  lemma LeaveOrRevoke(s: Store, v: UserId, u: UserId, o: OrgId)
    requires FindEdge(s.edges, u, o).Some?
    ensures DeleteEdge(s, UserSession(v), u, o).Ok? <==> v == u || CanManageEdges(s, UserSession(v), o)
  {
  }

  /** Creating an edge keeps the unique (in, out) index. */
  lemma CreateEdgeKeepsIndex(s: Store, a: Actor, u: UserId, o: OrgId, input: EdgeInput, now: Time)
    requires UniqueEdges(s.edges)
    requires CreateEdge(s, a, u, o, input, now).Ok?
    ensures UniqueEdges(CreateEdge(s, a, u, o, input, now).value.edges)
  {
  }

  /** Updating an edge keeps the unique (in, out) index. */
  lemma UpdateEdgeKeepsIndex(s: Store, a: Actor, u: UserId, o: OrgId, patch: EdgePatch, now: Time)
    requires UniqueEdges(s.edges)
    requires UpdateEdge(s, a, u, o, patch, now).Ok?
    ensures UniqueEdges(UpdateEdge(s, a, u, o, patch, now).value.edges)
  {
  }

  /** Deleting an edge keeps the unique (in, out) index. */
  lemma DeleteEdgeKeepsIndex(s: Store, a: Actor, u: UserId, o: OrgId)
    requires UniqueEdges(s.edges)
    requires DeleteEdge(s, a, u, o).Ok?
    ensures UniqueEdges(DeleteEdge(s, a, u, o).value.edges)
  {
  }
}

=== FILE: organisation.dfy ===
/** The `organisation` table: its permissions, the value rules of `slug`,
    `tier` and `part_of`, the admin-only fields, and the log entries its
    CREATE, UPDATE and DELETE events write. */
module Organisation {
  import opened Common
  import opened Schema
  import opened Managers
  import opened Audit

  /** The role list the table permissions and `part_of` test, spelled as
      the schema spells it: "adminstrator" matches no stored role. */
  const OrgManagerRoleNames: seq<string> := ["owner", "adminstrator"]

  /** `role IN ["owner", "adminstrator"]`. */
  predicate OrgManagerRole(r: Role)
  {
    RoleName(r) in OrgManagerRoleNames
  }

  /** Because of the spelling, only owners pass the role test. */
  lemma OrgManagerRoleIsOwner(r: Role)
    ensures OrgManagerRole(r) <==> r == Owner
  {
  }

  /** `managers[WHERE role IN [...] (AND org != NONE)].id CONTAINS $auth.id`
      for user `u` and managers list `ms`, with `inherited` selecting the
      `org != NONE` variant. */
  predicate ListsOrgManager(ms: seq<Manager>, u: UserId, inherited: bool)
  {
    exists m :: m in ms && m.user == u && OrgManagerRole(m.role) && (inherited ==> m.org.Some?)
  }

  /** `FOR create WHERE $scope IN ['admin', 'user']`. */
  predicate CreateAllowed(a: Actor)
  {
    a.AdminSession? || a.UserSession?
  }

  /** `FOR select`: the admin scope, or a user listed among the managers. */
  predicate SelectAllowed(s: Store, a: Actor, o: OrgId)
  {
    a.AdminSession? || (a.UserSession? && ListsUser(EffectiveManagers(s, o), a.user))
  }

  /** `FOR update`. */
  predicate UpdateAllowed(s: Store, a: Actor, o: OrgId)
  {
    a.AdminSession? || (a.UserSession? && ListsOrgManager(EffectiveManagers(s, o), a.user, false))
  }

  /** `FOR delete`: as update, but the entry must be inherited. */
  predicate DeleteAllowed(s: Store, a: Actor, o: OrgId)
  {
    a.AdminSession? || (a.UserSession? && ListsOrgManager(EffectiveManagers(s, o), a.user, true))
  }

  /** In terms of edges: a user may select an organisation exactly when it
      holds a confirmed edge, in any role, on it or on one of its ancestors. */
  lemma SelectAllowedIff(s: Store, u: UserId, o: OrgId)
    ensures SelectAllowed(s, UserSession(u), o) <==>
      o in s.orgs &&
      exists a, r :: a in [o] + Ancestors(s, o, MaxDepth) && ConfirmedEdge(s.edges, u, a, r)
  {
    ListsUserIff(s, o, u, MaxDepth);
  }

  /** In terms of edges: a user passes the update test exactly when it is a
      confirmed owner of the organisation or of an ancestor, and the delete
      test exactly when it is a confirmed owner of an ancestor. */
  lemma ListsOrgManagerIff(s: Store, u: UserId, o: OrgId, inherited: bool, depth: nat)
    ensures ListsOrgManager(ManagersOf(s, o, depth), u, inherited) <==>
      o in s.orgs &&
      ((!inherited && ConfirmedEdge(s.edges, u, o, Owner)) ||
       exists a :: a in Ancestors(s, o, depth) && ConfirmedEdge(s.edges, u, a, Owner))
  {
    var ms := ManagersOf(s, o, depth);
    if ListsOrgManager(ms, u, inherited) {
      var m :| m in ms && m.user == u && OrgManagerRole(m.role) && (inherited ==> m.org.Some?);
      OrgManagerRoleIsOwner(m.role);
      ManagersMembership(s, o, depth, m);
    }
    if o in s.orgs && !inherited && ConfirmedEdge(s.edges, u, o, Owner) {
      var m := Manager(u, Owner, None);
      ManagersMembership(s, o, depth, m);
      OrgManagerRoleIsOwner(Owner);
      assert m in ms && m.user == u && OrgManagerRole(m.role);
    }
    if o in s.orgs && exists a :: a in Ancestors(s, o, depth) && ConfirmedEdge(s.edges, u, a, Owner) {
      var a :| a in Ancestors(s, o, depth) && ConfirmedEdge(s.edges, u, a, Owner);
      var m := Manager(u, Owner, Some(a));
      ManagersMembership(s, o, depth, m);
      OrgManagerRoleIsOwner(Owner);
      assert m in ms && m.user == u && OrgManagerRole(m.role) && m.org.Some?;
    }
  }

  /** No user-scope session may delete a root organisation, not even its
      owner. */
  lemma RootNotDeletableByUsers(s: Store, u: UserId, o: OrgId)
    requires o in s.orgs && s.orgs[o].partOf.None?
    ensures !DeleteAllowed(s, UserSession(u), o)
  {
    ListsOrgManagerIff(s, u, o, true, MaxDepth);
  }

  /** `tier IN ["business", "enterprise"]`, for the tier the record holds
      when the slug rule runs; NONE is not a paid tier. */
  predicate PaidTier(tier: Option<string>)
  {
    tier.Some? && tier.value in ["business", "enterprise"]
  }

  /** The `slug` VALUE clause, for record key `id`, the slug the record
      holds (`$value`), the stored slug (`$before`) and the record's tier
      name at that point. */
  function ResolveSlug(a: Actor, value: Option<string>, before: Option<string>, tier: Option<string>, id: OrgId): (r: string)
    ensures value.None? ==> r == id
    ensures value == Some("") ==> r == before.ValueOr(id)
    ensures value.Some? && value.value != "" ==> r == value.value || r == id
    ensures value.Some? && value.value != "" && (Trusted(a) || PaidTier(tier)) ==> r == value.value
    ensures value.Some? && value.value != "" && !Trusted(a) && !PaidTier(tier) ==> r == id
    ensures r != id && r != before.ValueOr(id) ==> value == Some(r) && (Trusted(a) || PaidTier(tier))
  {
    if value.None? then id
    else if value.value == "" then before.ValueOr(id)
    else if Trusted(a) then value.value
    else if PaidTier(tier) then value.value
    else id
  }

  /** A slug is never empty, provided the key and the stored slug are not. */
  lemma SlugNeverEmpty(a: Actor, value: Option<string>, before: Option<string>, tier: Option<string>, id: OrgId)
    requires id != ""
    requires before.Some? ==> before.value != ""
    ensures ResolveSlug(a, value, before, tier, id) != ""
  {
  }

  /** The `tier` field, given the tier name the record holds (`$value`):
      NONE takes the DEFAULT "free"; then the ASSERT; then the admin-only
      permission, which keeps the stored tier for any other session. On
      create, where nothing is stored, the DEFAULT "free" is kept. */
  function ResolveTier(a: Actor, requested: Option<string>, before: Option<Tier>): (r: Result<Tier>)
    ensures r.Err? <==> requested.Some? && requested.value !in TierNames
    ensures r.Ok? && r.value != before.ValueOr(Free) ==>
      Trusted(a) && requested.Some? && TierName(r.value) == requested.value
    ensures r.Ok? && Trusted(a) && requested.Some? ==> TierName(r.value) == requested.value
  {
    match requested
    case None => Ok(before.ValueOr(Free))
    case Some(name) =>
      match ParseTier(name)
      case None => Err(InvalidField("tier"))
      case Some(t) => if Trusted(a) then Ok(t) else Ok(before.ValueOr(Free))
  }

  /** The test inside the `part_of` clause: the session's user passes the
      owner test in the requested parent's managers. */
  predicate ManagesParent(s: Store, a: Actor, value: Option<OrgId>)
  {
    value.Some? && a.UserSession? && ListsOrgManager(EffectiveManagers(s, value.value), a.user, false)
  }

  /** The `part_of` VALUE clause: `$value ?? $before` for a trusted session
      or a manager of the requested parent, otherwise `$before`. */
  function ResolvePartOf(s: Store, a: Actor, value: Option<OrgId>, before: Option<OrgId>): (r: Option<OrgId>)
    ensures r == before || r == value
    ensures r != before ==> value.Some? && (Trusted(a) || ManagesParent(s, a, value))
    ensures value.Some? && (Trusted(a) || ManagesParent(s, a, value)) ==> r == value
  {
    if Trusted(a) then value.OrElse(before)
    else if ManagesParent(s, a, value) then value
    else before
  }

  /** A user-scope session can attach an organisation to a parent only when
      it is a confirmed owner of that parent or of one of its ancestors. */
  lemma PartOfNeedsParentOwner(s: Store, u: UserId, value: Option<OrgId>, before: Option<OrgId>)
    requires ResolvePartOf(s, UserSession(u), value, before) != before
    ensures value.Some? && value.value in s.orgs
    ensures ConfirmedEdge(s.edges, u, value.value, Owner) ||
      exists a :: a in Ancestors(s, value.value, MaxDepth) && ConfirmedEdge(s.edges, u, a, Owner)
  {
    ListsOrgManagerIff(s, u, value.value, false, MaxDepth);
  }

  /** The fields a client writes; NONE means the field is not written. */
  datatype OrgInput = OrgInput(
    name: Option<string>,
    description: Option<string>,
    website: Option<string>,
    email: Option<string>,
    logo: Option<string>,
    banner: Option<string>,
    slug: Option<string>,
    tier: Option<string>,
    partOf: Option<OrgId>)

  /** The record as the field rules see it. Writes merge: a written field
      replaces the stored value and an absent one keeps it; on create
      nothing is stored. Its `tier` is the tier as written, which the slug
      rule reads before the tier's own rules run. */
  function Merged(before: Option<Org>, input: OrgInput): (d: OrgInput)
    ensures before.None? ==> d == input
    ensures before.Some? ==> d.name.Some? && d.email.Some? && d.slug.Some? && d.tier.Some?
  {
    match before
    case None => input
    case Some(b) =>
      OrgInput(
        input.name.OrElse(Some(b.name)), input.description.OrElse(b.description), input.website.OrElse(b.website),
        input.email.OrElse(Some(b.email)), input.logo.OrElse(b.logo), input.banner.OrElse(b.banner),
        input.slug.OrElse(Some(b.slug)), input.tier.OrElse(Some(TierName(b.tier))), input.partOf.OrElse(b.partOf))
  }

  /** The TYPE and ASSERT checks of a write: `name` and `email` are present,
      the email passes `string::is::email`, and the tier is a known name. */
  predicate OrgWriteValid(before: Option<Org>, input: OrgInput, isEmail: string -> bool)
  {
    var d := Merged(before, input);
    d.name.Some? && d.email.Some? && isEmail(d.email.value) && (d.tier.Some? ==> d.tier.value in TierNames)
  }

  /** The stored record a write produces, field by field in schema order.
      `before` is the stored record (NONE on create); `isEmail` stands for
      `string::is::email`. */
  function ResolveOrg(s: Store, a: Actor, id: OrgId, before: Option<Org>, input: OrgInput,
                      isEmail: string -> bool, now: Time): (r: Result<Org>)
    ensures r.Ok? <==> OrgWriteValid(before, input, isEmail)
    ensures r.Ok? ==> isEmail(r.value.email)
    ensures r.Ok? ==> PlainFieldsMerged(before, input, r.value)
    ensures r.Ok? ==> SlugGated(a, id, before, input, r.value)
    ensures r.Ok? ==> TierGated(a, before, input, r.value)
    ensures r.Ok? ==> AdminFieldsGated(s, a, before, input, r.value)
    ensures r.Ok? ==>
      r.value.updated == now && r.value.created == (if before.Some? then before.value.created else now)
  {
    var d := Merged(before, input);
    if d.name.None? then Err(InvalidField("name"))
    else if d.email.None? || !isEmail(d.email.value) then Err(InvalidField("email"))
    else
      var beforeTier := if before.Some? then Some(before.value.tier) else None;
      match ResolveTier(a, d.tier, beforeTier)
      case Err(e) => Err(e)
      case Ok(tier) =>
        BuildPlainFields(s, a, id, before, input, tier, now);
        BuildSlug(s, a, id, before, input, tier, now);
        BuildTier(s, a, id, before, input, tier, now);
        BuildAdminFields(s, a, id, before, input, tier, now);
        Ok(BuildOrg(s, a, id, before, d, tier, now))
  }

  /** Plain fields merge: a written name, email, description or website is
      stored, an absent one keeps the stored value (on create, an absent
      description or website stays NONE). */
  predicate PlainFieldsMerged(before: Option<Org>, input: OrgInput, o: Org)
  {
    (input.name.Some? ==> o.name == input.name.value) &&
    (input.email.Some? ==> o.email == input.email.value) &&
    (input.description.Some? ==> o.description == input.description) &&
    (input.website.Some? ==> o.website == input.website) &&
    (before.Some? ==>
      (input.name.None? ==> o.name == before.value.name) &&
      (input.email.None? ==> o.email == before.value.email) &&
      (input.description.None? ==> o.description == before.value.description) &&
      (input.website.None? ==> o.website == before.value.website)) &&
    (before.None? ==> o.description == input.description && o.website == input.website)
  }

  /** A slug other than the key and the stored one was written and needs a
      trusted session or a paid tier as written; such a write is honoured;
      a create without a slug gets the key. */
  predicate SlugGated(a: Actor, id: OrgId, before: Option<Org>, input: OrgInput, o: Org)
  {
    (o.slug != id && (before.None? || o.slug != before.value.slug) ==>
      input.slug == Some(o.slug) && (Trusted(a) || PaidTier(Merged(before, input).tier))) &&
    (input.slug.Some? && input.slug.value != "" && (Trusted(a) || PaidTier(Merged(before, input).tier)) ==>
      o.slug == input.slug.value) &&
    (before.None? && input.slug.None? ==> o.slug == id)
  }

  /** The tier differs from the stored one (or the default) only when a
      trusted session asked for it, and a trusted request is honoured. */
  predicate TierGated(a: Actor, before: Option<Org>, input: OrgInput, o: Org)
  {
    (o.tier != (if before.Some? then before.value.tier else Free) ==>
      Trusted(a) && input.tier == Some(TierName(o.tier))) &&
    (Trusted(a) && input.tier.Some? ==> TierName(o.tier) == input.tier.value)
  }

  /** The parent changes only as written, by a trusted session or on create
      by an owner of the parent; logo and banner change only as written, by
      a trusted session or on create; such writes are honoured. */
  predicate AdminFieldsGated(s: Store, a: Actor, before: Option<Org>, input: OrgInput, o: Org)
  {
    (o.partOf != (if before.Some? then before.value.partOf else None) ==>
      input.partOf.Some? && o.partOf == input.partOf &&
      (Trusted(a) || (before.None? && ManagesParent(s, a, input.partOf)))) &&
    (input.partOf.Some? && (Trusted(a) || (before.None? && ManagesParent(s, a, input.partOf))) ==>
      o.partOf == input.partOf) &&
    (o.logo != (if before.Some? then before.value.logo else None) ==>
      input.logo.Some? && o.logo == input.logo && (Trusted(a) || before.None?)) &&
    (o.banner != (if before.Some? then before.value.banner else None) ==>
      input.banner.Some? && o.banner == input.banner && (Trusted(a) || before.None?)) &&
    ((Trusted(a) || before.None?) ==>
      (input.logo.Some? ==> o.logo == input.logo) && (input.banner.Some? ==> o.banner == input.banner))
  }

  /* The lemmas below carry each group from the merged record over to the
     record BuildOrg writes. */

  lemma BuildPlainFields(s: Store, a: Actor, id: OrgId, before: Option<Org>, input: OrgInput, tier: Tier, now: Time)
    requires Merged(before, input).name.Some? && Merged(before, input).email.Some?
    ensures PlainFieldsMerged(before, input, BuildOrg(s, a, id, before, Merged(before, input), tier, now))
  {
  }

  lemma BuildSlug(s: Store, a: Actor, id: OrgId, before: Option<Org>, input: OrgInput, tier: Tier, now: Time)
    requires Merged(before, input).name.Some? && Merged(before, input).email.Some?
    ensures SlugGated(a, id, before, input, BuildOrg(s, a, id, before, Merged(before, input), tier, now))
  {
  }

  lemma BuildTier(s: Store, a: Actor, id: OrgId, before: Option<Org>, input: OrgInput, tier: Tier, now: Time)
    requires Merged(before, input).name.Some? && Merged(before, input).email.Some?
    requires ResolveTier(a, Merged(before, input).tier, if before.Some? then Some(before.value.tier) else None) == Ok(tier)
    ensures TierGated(a, before, input, BuildOrg(s, a, id, before, Merged(before, input), tier, now))
  {
  }

  lemma BuildAdminFields(s: Store, a: Actor, id: OrgId, before: Option<Org>, input: OrgInput, tier: Tier, now: Time)
    requires Merged(before, input).name.Some? && Merged(before, input).email.Some?
    ensures AdminFieldsGated(s, a, before, input, BuildOrg(s, a, id, before, Merged(before, input), tier, now))
  {
  }

  /** The record a valid write stores, from the merged record `d` and the
      resolved tier. A user-scope update keeps the stored logo, banner and
      parent. */
  function BuildOrg(s: Store, a: Actor, id: OrgId, before: Option<Org>, d: OrgInput, tier: Tier, now: Time): (r: Org)
    requires d.name.Some? && d.email.Some?
    ensures r.name == d.name.value && r.email == d.email.value
    ensures r.description == d.description && r.website == d.website && r.tier == tier
    ensures r.slug != id && (before.None? || r.slug != before.value.slug) ==>
      d.slug == Some(r.slug) && (Trusted(a) || PaidTier(d.tier))
    ensures d.slug.Some? && d.slug.value != "" && (Trusted(a) || PaidTier(d.tier)) ==> r.slug == d.slug.value
    ensures d.slug.None? ==> r.slug == id
    ensures before.Some? && ChecksPermissions(a) && !a.AdminSession? ==>
      r.logo == before.value.logo && r.banner == before.value.banner && r.partOf == before.value.partOf
    ensures before.None? || !ChecksPermissions(a) || a.AdminSession? ==> r.logo == d.logo && r.banner == d.banner
    ensures r.partOf != (if before.Some? then before.value.partOf else None) ==>
      d.partOf.Some? && r.partOf == d.partOf && (Trusted(a) || (before.None? && ManagesParent(s, a, d.partOf)))
    ensures d.partOf.Some? && (Trusted(a) || (before.None? && ManagesParent(s, a, d.partOf))) ==> r.partOf == d.partOf
    ensures r.updated == now && r.created == (if before.Some? then before.value.created else now)
  {
    var beforeSlug := if before.Some? then Some(before.value.slug) else None;
    var beforePartOf := if before.Some? then before.value.partOf else None;
    var slug := ResolveSlug(a, d.slug, beforeSlug, d.tier, id);
    var partOf := ResolvePartOf(s, a, d.partOf, beforePartOf);
    var kept := before.Some? && ChecksPermissions(a) && !a.AdminSession?;
    Org(
      d.name.value, d.description, d.website, d.email.value,
      if kept then before.value.logo else d.logo,
      if kept then before.value.banner else d.banner,
      slug, tier,
      if kept then before.value.partOf else partOf,
      if before.Some? then before.value.created else now,
      now)
  }

  /** The slug rule reads the tier as written: a user-scope session that
      writes a paid tier together with a slug keeps that slug, even though
      the tier itself stays as stored. */
  lemma SlugFollowsWrittenTier(s: Store, u: UserId, id: OrgId, b: Org, input: OrgInput,
                               isEmail: string -> bool, now: Time)
    requires OrgWriteValid(Some(b), input, isEmail)
    requires input.slug.Some? && input.slug.value != ""
    requires input.tier == Some("business") || input.tier == Some("enterprise")
    ensures var r := ResolveOrg(s, UserSession(u), id, Some(b), input, isEmail, now);
      r.Ok? && r.value.slug == input.slug.value && r.value.tier == b.tier
  {
  }

  /** Conversely, a user-scope update of a record whose tier is not paid,
      and that writes no tier, resets a non-empty stored slug to the key,
      whether or not it writes a slug. */
  lemma UnpaidUserUpdateResetsSlug(s: Store, u: UserId, id: OrgId, b: Org, input: OrgInput,
                                   isEmail: string -> bool, now: Time)
    requires OrgWriteValid(Some(b), input, isEmail)
    requires !PaidTier(Some(TierName(b.tier))) && input.tier.None?
    requires input.slug.None? || input.slug.value != ""
    requires b.slug != ""
    ensures ResolveOrg(s, UserSession(u), id, Some(b), input, isEmail, now).value.slug == id
  {
  }

  /** The UPDATE event: one entry per changed field among name,
      description, website and email. */
  function OrgUpdateLog(id: OrgId, b: Org, a: Org): (r: seq<LogEntry>)
    ensures |r| == (if b.name != a.name then 1 else 0) + (if b.description != a.description then 1 else 0)
                 + (if b.website != a.website then 1 else 0) + (if b.email != a.email then 1 else 0)
    ensures r == [] <==> b.name == a.name && b.description == a.description &&
                         b.website == a.website && b.email == a.email
    ensures forall e :: e in r ==> e.record == OrgRef(id) && e.event == Update && e.change.Some?
  {
    var w0 := Watched("name", Some(b.name), Some(a.name));
    var w1 := Watched("description", b.description, a.description);
    var w2 := Watched("website", b.website, a.website);
    var w3 := Watched("email", Some(b.email), Some(a.email));
    DiffCons(OrgRef(id), w0, [w1, w2, w3]);
    DiffCons(OrgRef(id), w1, [w2, w3]);
    DiffCons(OrgRef(id), w2, [w3]);
    DiffCons(OrgRef(id), w3, []);
    Diff(OrgRef(id), [w0, w1, w2, w3])
  }

  /** The entry for a field is written exactly when the field changed, and
      carries the values before and after. */
  lemma OrgUpdateLogEntries(id: OrgId, b: Org, a: Org)
    ensures LogEntry(OrgRef(id), Update, Some(Change("name", Some(b.name), Some(a.name)))) in OrgUpdateLog(id, b, a)
        <==> b.name != a.name
    ensures LogEntry(OrgRef(id), Update, Some(Change("description", b.description, a.description))) in OrgUpdateLog(id, b, a)
        <==> b.description != a.description
    ensures LogEntry(OrgRef(id), Update, Some(Change("website", b.website, a.website))) in OrgUpdateLog(id, b, a)
        <==> b.website != a.website
    ensures LogEntry(OrgRef(id), Update, Some(Change("email", Some(b.email), Some(a.email)))) in OrgUpdateLog(id, b, a)
        <==> b.email != a.email
  {
    var w := [Watched("name", Some(b.name), Some(a.name)),
              Watched("description", b.description, a.description),
              Watched("website", b.website, a.website),
              Watched("email", Some(b.email), Some(a.email))];
    DiffEntries(OrgRef(id), w, "name", Some(b.name), Some(a.name));
    DiffEntries(OrgRef(id), w, "description", b.description, a.description);
    DiffEntries(OrgRef(id), w, "website", b.website, a.website);
    DiffEntries(OrgRef(id), w, "email", Some(b.email), Some(a.email));
  }

  /** `CREATE organisation:id CONTENT input`: the new store and the log. */
  function CreateOrganisation(s: Store, a: Actor, id: OrgId, input: OrgInput,
                              isEmail: string -> bool, now: Time): (r: Result<(Store, seq<LogEntry>)>)
    ensures id in s.orgs ==> r == Err(RecordExists)
    ensures r.Ok? <==>
      id !in s.orgs && (!ChecksPermissions(a) || CreateAllowed(a)) && OrgWriteValid(None, input, isEmail)
    ensures r.Ok? ==> var (t, log) := r.value;
      id in t.orgs && t.orgs == s.orgs[id := t.orgs[id]] &&
      t.users == s.users && t.edges == s.edges &&
      Ok(t.orgs[id]) == ResolveOrg(s, a, id, None, input, isEmail, now) &&
      log == [LogEntry(OrgRef(id), Create, None)]
    ensures r.Ok? ==> var o := r.value.0.orgs[id];
      o.created == now && o.name == input.name.value && o.email == input.email.value &&
      (o.slug != id ==> input.slug == Some(o.slug) && (Trusted(a) || PaidTier(input.tier))) &&
      (o.tier != Free ==> Trusted(a) && input.tier == Some(TierName(o.tier))) &&
      (o.partOf.Some? ==> o.partOf == input.partOf && (Trusted(a) || ManagesParent(s, a, input.partOf)))
  {
    if id in s.orgs then Err(RecordExists)
    else if ChecksPermissions(a) && !CreateAllowed(a) then Err(PermissionDenied)
    else
      match ResolveOrg(s, a, id, None, input, isEmail, now)
      case Err(e) => Err(e)
      case Ok(o) => Ok((s.(orgs := s.orgs[id := o]), CreateLog(OrgRef(id))))
  }

  /** A user-scope session that is not a confirmed owner of the requested
      parent or of any of its ancestors gets no parent: the create still
      succeeds on valid fields, but `part_of` stays empty. */
  lemma CreateUnderParentNeedsOwner(s: Store, u: UserId, id: OrgId, input: OrgInput,
                                    isEmail: string -> bool, now: Time, p: OrgId)
    requires input.partOf == Some(p)
    requires !ConfirmedEdge(s.edges, u, p, Owner)
    requires forall a :: a in Ancestors(s, p, MaxDepth) ==> !ConfirmedEdge(s.edges, u, a, Owner)
    ensures var r := CreateOrganisation(s, UserSession(u), id, input, isEmail, now);
      r.Ok? ==> r.value.0.orgs[id].partOf.None?
  {
    ListsOrgManagerIff(s, u, p, false, MaxDepth);
  }

  /** `UPDATE organisation:id MERGE input`: the new store and the log. */
  function UpdateOrganisation(s: Store, a: Actor, id: OrgId, input: OrgInput,
                              isEmail: string -> bool, now: Time): (r: Result<(Store, seq<LogEntry>)>)
    ensures id !in s.orgs ==> r == Err(NotFound)
    ensures id in s.orgs ==>
      (r.Ok? <==>
        (!ChecksPermissions(a) || UpdateAllowed(s, a, id)) && OrgWriteValid(Some(s.orgs[id]), input, isEmail))
    ensures r.Ok? ==> var (t, log) := r.value;
      id in s.orgs && id in t.orgs && t.orgs == s.orgs[id := t.orgs[id]] &&
      t.users == s.users && t.edges == s.edges &&
      Ok(t.orgs[id]) == ResolveOrg(s, a, id, Some(s.orgs[id]), input, isEmail, now) &&
      t.orgs[id].created == s.orgs[id].created &&
      log == OrgUpdateLog(id, s.orgs[id], t.orgs[id])
    ensures r.Ok? && a.UserSession? ==> var o := r.value.0.orgs[id];
      o.partOf == s.orgs[id].partOf && o.tier == s.orgs[id].tier &&
      o.logo == s.orgs[id].logo && o.banner == s.orgs[id].banner
  {
    if id !in s.orgs then Err(NotFound)
    else if ChecksPermissions(a) && !UpdateAllowed(s, a, id) then Err(PermissionDenied)
    else
      var before := s.orgs[id];
      match ResolveOrg(s, a, id, Some(before), input, isEmail, now)
      case Err(e) => Err(e)
      case Ok(o) => Ok((s.(orgs := s.orgs[id := o]), OrgUpdateLog(id, before, o)))
  }

  /** `DELETE organisation:id`: the record goes, with the edges into it. */
  function DeleteOrganisation(s: Store, a: Actor, id: OrgId): (r: Result<(Store, seq<LogEntry>)>)
    ensures id !in s.orgs ==> r == Err(NotFound)
    ensures id in s.orgs ==> (r.Ok? <==> !ChecksPermissions(a) || DeleteAllowed(s, a, id))
    ensures r.Ok? ==> var (t, log) := r.value;
      id in s.orgs && t.orgs == s.orgs - {id} && t.users == s.users &&
      (forall e :: e in t.edges <==> e in s.edges && e.org != id) &&
      log == [LogEntry(OrgRef(id), Delete, None)]
  {
    if id !in s.orgs then Err(NotFound)
    else if ChecksPermissions(a) && !DeleteAllowed(s, a, id) then Err(PermissionDenied)
    else
      var t := Store(s.orgs - {id}, s.users, Filter(s.edges, (e: Edge) => e.org != id));
      Ok((t, DeleteLog(OrgRef(id))))
  }

  /** Deleting an organisation keeps the unique (in, out) index, and leaves
      no edge pointing at a missing record. */
  lemma DeleteOrganisationKeepsStore(s: Store, a: Actor, id: OrgId)
    requires UniqueEdges(s.edges) && EdgesAttached(s)
    requires DeleteOrganisation(s, a, id).Ok?
    ensures UniqueEdges(DeleteOrganisation(s, a, id).value.0.edges)
    ensures EdgesAttached(DeleteOrganisation(s, a, id).value.0)
  {
    FilterKeepsIndex(s.edges, (e: Edge) => e.org != id);
  }

  /** Creating an organisation and deleting it again restores the store. */
  lemma CreateThenDeleteOrganisation(s: Store, a: Actor, id: OrgId, input: OrgInput,
                                     isEmail: string -> bool, now: Time)
    requires EdgesAttached(s)
    requires CreateOrganisation(s, a, id, input, isEmail, now).Ok?
    ensures var t := CreateOrganisation(s, a, id, input, isEmail, now).value.0;
      DeleteOrganisation(t, SystemSession, id) == Ok((s, [LogEntry(OrgRef(id), Delete, None)]))
  {
    var t := CreateOrganisation(s, a, id, input, isEmail, now).value.0;
    FilterKeepsAll(s.edges, (e: Edge) => e.org != id);
    assert t.orgs - {id} == s.orgs;
  }
}

=== FILE: schema.dfy ===
/** The stored records: organisations, users and the `manages` edges that
    relate a user to an organisation, with the two enumerations the schema
    asserts (the manager role and the organisation tier). */
module Schema {
  import opened Common

  /** The values `manages.role` may take. */
  datatype Role = Owner | Administrator | EventManager | EventViewer

  /** The string a role is stored as. */
  function RoleName(r: Role): string
  {
    match r
    case Owner => "owner"
    case Administrator => "administrator"
    case EventManager => "event_manager"
    case EventViewer => "event_viewer"
  }

  /** The list the `role` ASSERT tests membership in. */
  const RoleNames: seq<string> := ["owner", "administrator", "event_manager", "event_viewer"]

  /** The `role` ASSERT: a string is accepted exactly when it names a role,
      and then it names that role. */
  function ParseRole(s: string): (r: Option<Role>)
    ensures r.Some? <==> s in RoleNames
    ensures r.Some? ==> RoleName(r.value) == s
  {
    if s == "owner" then Some(Owner)
    else if s == "administrator" then Some(Administrator)
    else if s == "event_manager" then Some(EventManager)
    else if s == "event_viewer" then Some(EventViewer)
    else None
  }

  /** The values `organisation.tier` may take. */
  datatype Tier = Free | Basic | Business | Enterprise

  function TierName(t: Tier): string
  {
    match t
    case Free => "free"
    case Basic => "basic"
    case Business => "business"
    case Enterprise => "enterprise"
  }

  /** The list the `tier` ASSERT tests membership in. */
  const TierNames: seq<string> := ["free", "basic", "business", "enterprise"]

  /** The `tier` ASSERT: a string is accepted exactly when it names a tier. */
  function ParseTier(s: string): (r: Option<Tier>)
    ensures r.Some? <==> s in TierNames
    ensures r.Some? ==> TierName(r.value) == s
  {
    if s == "free" then Some(Free)
    else if s == "basic" then Some(Basic)
    else if s == "business" then Some(Business)
    else if s == "enterprise" then Some(Enterprise)
    else None
  }

  /** A `manages` edge: `in` is the user, `out` the organisation. */
  datatype Edge = Edge(
    user: UserId,
    org: OrgId,
    role: Role,
    confirmed: bool,
    public: bool,
    created: Time,
    updated: Time)

  datatype Org = Org(
    name: string,
    description: Option<string>,
    website: Option<string>,
    email: string,
    logo: Option<string>,
    banner: Option<string>,
    slug: string,
    tier: Tier,
    partOf: Option<OrgId>,
    created: Time,
    updated: Time)

  datatype User = User(
    name: string,
    email: string,
    picture: Option<string>,
    created: Time,
    updated: Time)

  /** The database: organisation and user tables keyed by record id, and
      the `manages` edges in the order the engine returns them. */
  datatype Store = Store(
    orgs: map<OrgId, Org>,
    users: map<UserId, User>,
    edges: seq<Edge>)

  /** Every edge relates an existing user to an existing organisation. */
  predicate EdgesAttached(s: Store)
  {
    forall i :: 0 <= i < |s.edges| ==> s.edges[i].user in s.users && s.edges[i].org in s.orgs
  }

  /** Whether edge `e` relates user `u` to organisation `o`. */
  predicate Relates(e: Edge, u: UserId, o: OrgId)
  {
    e.user == u && e.org == o
  }

  /** The `unique_relation` index: no two edges share their (in, out) pair. */
  predicate UniqueEdges(edges: seq<Edge>)
  {
    forall i, j :: 0 <= i < j < |edges| ==>
      !Relates(edges[j], edges[i].user, edges[i].org)
  }

  /** The position of the edge relating `u` to `o`, if there is one. */
  function FindEdge(edges: seq<Edge>, u: UserId, o: OrgId): (r: Option<nat>)
    ensures r.Some? ==> r.value < |edges| && Relates(edges[r.value], u, o)
    ensures r.None? ==> forall i :: 0 <= i < |edges| ==> !Relates(edges[i], u, o)
  {
    if edges == [] then None
    else if Relates(edges[0], u, o) then Some(0)
    else
      match FindEdge(edges[1..], u, o)
      case None => None
      case Some(k) => Some(k + 1)
  }

  /** With the index in force, the edge FindEdge returns is the only one. */
  lemma FindEdgeUnique(edges: seq<Edge>, u: UserId, o: OrgId, i: nat)
    requires UniqueEdges(edges)
    requires i < |edges| && Relates(edges[i], u, o)
    ensures FindEdge(edges, u, o) == Some(i)
  {
  }

  /** The edges with the one at position `i` removed, the others in
      order. */
  function RemoveAt(edges: seq<Edge>, i: nat): (r: seq<Edge>)
    requires i < |edges|
    ensures |r| + 1 == |edges|
    ensures multiset(r) + multiset{edges[i]} == multiset(edges)
    ensures forall j :: 0 <= j < |r| ==> r[j] == if j < i then edges[j] else edges[j + 1]
  {
    assert edges == edges[..i] + [edges[i]] + edges[i + 1..];
    edges[..i] + edges[i + 1..]
  }

  /** With the index in force, no edge left after a removal relates the
      pair the removed edge related. */
  lemma RemoveAtUnique(edges: seq<Edge>, i: nat)
    requires i < |edges|
    ensures UniqueEdges(edges) ==>
      forall j :: 0 <= j < |RemoveAt(edges, i)| ==> !Relates(RemoveAt(edges, i)[j], edges[i].user, edges[i].org)
  {
    var r := RemoveAt(edges, i);
    forall j | 0 <= j < |r| && UniqueEdges(edges)
      ensures !Relates(r[j], edges[i].user, edges[i].org)
    {
      if j >= i {
        assert r[j] == edges[j + 1];
      }
    }
  }

  /** The edges `keep` accepts, in their original order. The engine drops
      the edges of a deleted record this way. */
  function Filter(edges: seq<Edge>, keep: Edge -> bool): (r: seq<Edge>)
    ensures |r| <= |edges|
    ensures forall e :: e in r <==> e in edges && keep(e)
  {
    if edges == [] then []
    else if keep(edges[0]) then [edges[0]] + Filter(edges[1..], keep)
    else Filter(edges[1..], keep)
  }

  /** Dropping edges keeps the unique (in, out) index. */
  lemma {:induction false} FilterKeepsIndex(edges: seq<Edge>, keep: Edge -> bool)
    requires UniqueEdges(edges)
    ensures UniqueEdges(Filter(edges, keep))
  {
    if edges != [] {
      var rest := edges[1..];
      assert UniqueEdges(rest) by {
        forall i, j | 0 <= i < j < |rest|
          ensures !Relates(rest[j], rest[i].user, rest[i].org)
        {
          assert rest[i] == edges[i + 1] && rest[j] == edges[j + 1];
        }
      }
      FilterKeepsIndex(rest, keep);
      var f := Filter(rest, keep);
      if keep(edges[0]) {
        forall j | 0 <= j < |f|
          ensures !Relates(f[j], edges[0].user, edges[0].org)
        {
          assert f[j] in rest;
          var k :| 0 <= k < |rest| && rest[k] == f[j];
          assert edges[k + 1] == f[j];
        }
        var r := [edges[0]] + f;
        forall i, j | 0 <= i < j < |r|
          ensures !Relates(r[j], r[i].user, r[i].org)
        {
          if i > 0 {
            assert r[i] == f[i - 1] && r[j] == f[j - 1];
          } else {
            assert r[j] == f[j - 1];
          }
        }
      }
    }
  }

  /** Filtering with a test every edge passes changes nothing. */
  lemma {:induction false} FilterKeepsAll(edges: seq<Edge>, keep: Edge -> bool)
    requires forall i :: 0 <= i < |edges| ==> keep(edges[i])
    ensures Filter(edges, keep) == edges
  {
    if edges != [] {
      assert keep(edges[0]);
      FilterKeepsAll(edges[1..], keep);
      assert [edges[0]] + edges[1..] == edges;
    }
  }
}

=== FILE: user.dfy ===
/** The `user` table: who may see, change, create or delete a user, the
    `name` and `email` assertions, the unique email index, the admin-only
    `profile_picture`, and the log entries of its events. */
module Users {
  import opened Common
  import opened Schema
  import opened Managers
  import opened Audit
  import opened Words

  /** `(SELECT VALUE id FROM organisation WHERE [$parent.id, $auth.id]
      ALLINSIDE managers.*.id)[0]`: some organisation lists both users. */
  predicate ShareOrganisation(s: Store, target: UserId, u: UserId)
  {
    exists o :: o in s.orgs && ListsUser(EffectiveManagers(s, o), target) && ListsUser(EffectiveManagers(s, o), u)
  }

  /** `FOR select, update, delete`. */
  predicate AccessAllowed(s: Store, a: Actor, target: UserId)
  {
    a.AdminSession? || (a.UserSession? && (a.user == target || ShareOrganisation(s, target, a.user)))
  }

  /** `FOR create WHERE $scope = 'admin'`. */
  predicate CreateAllowed(a: Actor)
  {
    a.AdminSession?
  }

  /** User `u` holds a confirmed edge, in any role, into `o` or into one
      of the ancestors a `managers` list of the given depth reaches. */
  predicate ConfirmedOnChain(s: Store, o: OrgId, u: UserId, depth: nat)
  {
    exists x, r :: x in [o] + Ancestors(s, o, depth) && ConfirmedEdge(s.edges, u, x, r)
  }

  /** At any depth bound, some organisation lists both users exactly when
      both are confirmed somewhere on that organisation's chain. */
  lemma ShareIff(s: Store, t: UserId, u: UserId, depth: nat)
    ensures (exists o :: o in s.orgs && ListsUser(ManagersOf(s, o, depth), t) && ListsUser(ManagersOf(s, o, depth), u)) <==>
      exists o :: o in s.orgs && ConfirmedOnChain(s, o, t, depth) && ConfirmedOnChain(s, o, u, depth)
  {
    forall o, v | o in s.orgs
      ensures ListsUser(ManagersOf(s, o, depth), v) <==> ConfirmedOnChain(s, o, v, depth)
    {
      ListsUserIff(s, o, v, depth);
    }
  }

  /** The user clause restated over edges: an admin session, the user
      itself, or a user confirmed somewhere on the chain of an organisation
      where the target is confirmed too. */
  lemma AccessAllowedIff(s: Store, a: Actor, t: UserId)
    ensures AccessAllowed(s, a, t) <==>
      a.AdminSession? ||
      (a.UserSession? && (a.user == t ||
        exists o :: o in s.orgs && ConfirmedOnChain(s, o, t, MaxDepth) && ConfirmedOnChain(s, o, a.user, MaxDepth)))
  {
    if a.UserSession? {
      ShareIff(s, t, a.user, MaxDepth);
    }
  }

  /** Two users confirmed on the same organisation, in any roles, may each
      read, update and delete the other's record. */
  lemma ColleaguesAccessEachOther(s: Store, o: OrgId, t: UserId, u: UserId, rt: Role, ru: Role)
    requires o in s.orgs
    requires ConfirmedEdge(s.edges, t, o, rt) && ConfirmedEdge(s.edges, u, o, ru)
    ensures AccessAllowed(s, UserSession(u), t)
  {
    ListsUserIff(s, o, t, MaxDepth);
    ListsUserIff(s, o, u, MaxDepth);
  }

  /** A user with no confirmed edge is listed by no organisation. */
  lemma LoneUserListedNowhere(s: Store, u: UserId, o: OrgId, depth: nat)
    requires forall i :: 0 <= i < |s.edges| ==> !(s.edges[i].user == u && s.edges[i].confirmed)
    ensures !ListsUser(ManagersOf(s, o, depth), u)
  {
    ListsUserIff(s, o, u, depth);
  }

  /** Hence such a user reaches no record but its own. */
  lemma LoneUserReachesOnlySelf(s: Store, u: UserId, t: UserId)
    requires forall i :: 0 <= i < |s.edges| ==> !(s.edges[i].user == u && s.edges[i].confirmed)
    requires AccessAllowed(s, UserSession(u), t)
    ensures t == u
  {
  }

  /** The `email` UNIQUE index, for a write of user `id`: no other user
      holds the address. */
  predicate EmailFree(users: map<UserId, User>, email: string, id: UserId)
  {
    forall x :: x in users && x != id ==> users[x].email != email
  }

  /** The index holds over the whole table. */
  ghost predicate EmailsUnique(users: map<UserId, User>)
  {
    forall x, y :: x in users && y in users && x != y ==> users[x].email != users[y].email
  }

  /** The fields a client writes; NONE means the field is not written.
      Writes merge: an absent field keeps its stored value. */
  datatype UserInput = UserInput(name: Option<string>, email: Option<string>, picture: Option<string>)

  /** The UPDATE event: one entry per changed field among name, email and
      profile_picture; `created`, `updated` and the key are never logged. */
  function UserUpdateLog(id: UserId, b: User, a: User): (r: seq<LogEntry>)
    ensures |r| == (if b.name != a.name then 1 else 0) + (if b.email != a.email then 1 else 0)
                 + (if b.picture != a.picture then 1 else 0)
    ensures r == [] <==> b.name == a.name && b.email == a.email && b.picture == a.picture
    ensures forall e :: e in r ==> e.record == UserRef(id) && e.event == Update && e.change.Some?
  {
    var w0 := Watched("name", Some(b.name), Some(a.name));
    var w1 := Watched("email", Some(b.email), Some(a.email));
    var w2 := Watched("profile_picture", b.picture, a.picture);
    DiffCons(UserRef(id), w0, [w1, w2]);
    DiffCons(UserRef(id), w1, [w2]);
    DiffCons(UserRef(id), w2, []);
    Diff(UserRef(id), [w0, w1, w2])
  }

  /** The entry for a field is written exactly when the field changed, and
      carries the values before and after. */
  lemma UserUpdateLogEntries(id: UserId, b: User, a: User)
    ensures LogEntry(UserRef(id), Update, Some(Change("name", Some(b.name), Some(a.name)))) in UserUpdateLog(id, b, a)
        <==> b.name != a.name
    ensures LogEntry(UserRef(id), Update, Some(Change("email", Some(b.email), Some(a.email)))) in UserUpdateLog(id, b, a)
        <==> b.email != a.email
    ensures LogEntry(UserRef(id), Update, Some(Change("profile_picture", b.picture, a.picture))) in UserUpdateLog(id, b, a)
        <==> b.picture != a.picture
  {
    var w := [Watched("name", Some(b.name), Some(a.name)),
              Watched("email", Some(b.email), Some(a.email)),
              Watched("profile_picture", b.picture, a.picture)];
    DiffEntries(UserRef(id), w, "name", Some(b.name), Some(a.name));
    DiffEntries(UserRef(id), w, "email", Some(b.email), Some(a.email));
    DiffEntries(UserRef(id), w, "profile_picture", b.picture, a.picture);
  }

  /** `CREATE user:id CONTENT input` at time `now`; `isEmail` stands for
      `is::email`. */
  function CreateUser(s: Store, a: Actor, id: UserId, input: UserInput,
                      isEmail: string -> bool, now: Time): (r: Result<(Store, seq<LogEntry>)>)
    ensures id in s.users ==> r == Err(RecordExists)
    ensures r.Ok? <==>
      id !in s.users && (!ChecksPermissions(a) || a.AdminSession?) &&
      input.name.Some? && HasTwoWords(input.name.value) &&
      input.email.Some? && isEmail(input.email.value) && EmailFree(s.users, input.email.value, id)
    ensures r.Ok? ==> var (t, log) := r.value;
      t.orgs == s.orgs && t.edges == s.edges && id in t.users && t.users == s.users[id := t.users[id]] &&
      t.users[id] == User(input.name.value, input.email.value, input.picture, now, now) &&
      log == [LogEntry(UserRef(id), Create, None)]
  {
    if id in s.users then Err(RecordExists)
    else if ChecksPermissions(a) && !CreateAllowed(a) then Err(PermissionDenied)
    else if input.name.None? || !NameAccepted(input.name.value) then Err(InvalidField("name"))
    else if input.email.None? || !isEmail(input.email.value) then Err(InvalidField("email"))
    else if !EmailFree(s.users, input.email.value, id) then Err(IndexViolation("email"))
    else
      var u := User(input.name.value, input.email.value, input.picture, now, now);
      Ok((s.(users := s.users[id := u]), CreateLog(UserRef(id))))
  }

  /** `UPDATE user:id MERGE input` at time `now`. */
  function UpdateUser(s: Store, a: Actor, id: UserId, input: UserInput,
                      isEmail: string -> bool, now: Time): (r: Result<(Store, seq<LogEntry>)>)
    ensures id !in s.users ==> r == Err(NotFound)
    ensures id in s.users ==>
      var name := input.name.ValueOr(s.users[id].name); var email := input.email.ValueOr(s.users[id].email);
      (r.Ok? <==>
        (!ChecksPermissions(a) || AccessAllowed(s, a, id)) &&
        HasTwoWords(name) && isEmail(email) && EmailFree(s.users, email, id))
    ensures r.Ok? ==> var (t, log) := r.value;
      t.orgs == s.orgs && t.edges == s.edges && id in s.users && id in t.users &&
      t.users == s.users[id := t.users[id]] &&
      t.users[id].created == s.users[id].created && t.users[id].updated == now &&
      t.users[id].name == input.name.ValueOr(s.users[id].name) &&
      t.users[id].email == input.email.ValueOr(s.users[id].email) &&
      log == UserUpdateLog(id, s.users[id], t.users[id])
    ensures r.Ok? && a.UserSession? ==> r.value.0.users[id].picture == s.users[id].picture
    ensures r.Ok? && Trusted(a) ==> r.value.0.users[id].picture == input.picture.OrElse(s.users[id].picture)
  {
    if id !in s.users then Err(NotFound)
    else if ChecksPermissions(a) && !AccessAllowed(s, a, id) then Err(PermissionDenied)
    else
      var before := s.users[id];
      var name := input.name.ValueOr(before.name);
      var email := input.email.ValueOr(before.email);
      if !NameAccepted(name) then Err(InvalidField("name"))
      else if !isEmail(email) then Err(InvalidField("email"))
      else
        var picture := if ChecksPermissions(a) && !a.AdminSession? then before.picture else input.picture.OrElse(before.picture);
        if !EmailFree(s.users, email, id) then Err(IndexViolation("email"))
        else
          var after := User(name, email, picture, before.created, now);
          Ok((s.(users := s.users[id := after]), UserUpdateLog(id, before, after)))
  }

  /** `DELETE user:id`: the record goes, with its edges. */
  function DeleteUser(s: Store, a: Actor, id: UserId): (r: Result<(Store, seq<LogEntry>)>)
    ensures id !in s.users ==> r == Err(NotFound)
    ensures id in s.users ==> (r.Ok? <==> !ChecksPermissions(a) || AccessAllowed(s, a, id))
    ensures r.Ok? ==> var (t, log) := r.value;
      id in s.users && t.users == s.users - {id} && t.orgs == s.orgs &&
      (forall e :: e in t.edges <==> e in s.edges && e.user != id) &&
      log == [LogEntry(UserRef(id), Delete, None)]
  {
    if id !in s.users then Err(NotFound)
    else if ChecksPermissions(a) && !AccessAllowed(s, a, id) then Err(PermissionDenied)
    else
      var t := Store(s.orgs, s.users - {id}, Filter(s.edges, (e: Edge) => e.user != id));
      Ok((t, DeleteLog(UserRef(id))))
  }

  /** Creating a user keeps every email unique; a second user with a taken
      address is refused. */
  lemma CreateUserKeepsEmailsUnique(s: Store, a: Actor, id: UserId, input: UserInput,
                                    isEmail: string -> bool, now: Time)
    requires EmailsUnique(s.users)
    ensures CreateUser(s, a, id, input, isEmail, now).Ok? ==>
      EmailsUnique(CreateUser(s, a, id, input, isEmail, now).value.0.users)
    ensures (exists x :: x in s.users && input.email.Some? && s.users[x].email == input.email.value) ==>
      CreateUser(s, a, id, input, isEmail, now).Err?
  {
  }

  /** Updating a user keeps every email unique. */
  lemma UpdateUserKeepsEmailsUnique(s: Store, a: Actor, id: UserId, input: UserInput,
                                    isEmail: string -> bool, now: Time)
    requires EmailsUnique(s.users)
    requires UpdateUser(s, a, id, input, isEmail, now).Ok?
    ensures EmailsUnique(UpdateUser(s, a, id, input, isEmail, now).value.0.users)
  {
  }

  /** Deleting a user keeps both unique indexes and leaves no edge pointing
      at a missing record. */
  lemma DeleteUserKeepsStore(s: Store, a: Actor, id: UserId)
    requires UniqueEdges(s.edges) && EmailsUnique(s.users) && EdgesAttached(s)
    requires DeleteUser(s, a, id).Ok?
    ensures UniqueEdges(DeleteUser(s, a, id).value.0.edges)
    ensures EmailsUnique(DeleteUser(s, a, id).value.0.users)
    ensures EdgesAttached(DeleteUser(s, a, id).value.0)
  {
    FilterKeepsIndex(s.edges, (e: Edge) => e.user != id);
  }

  /** Creating a user and deleting it again restores the store. */
  lemma CreateThenDeleteUser(s: Store, a: Actor, id: UserId, input: UserInput,
                             isEmail: string -> bool, now: Time)
    requires EdgesAttached(s)
    requires CreateUser(s, a, id, input, isEmail, now).Ok?
    ensures var t := CreateUser(s, a, id, input, isEmail, now).value.0;
      DeleteUser(t, SystemSession, id) == Ok((s, [LogEntry(UserRef(id), Delete, None)]))
  {
    var t := CreateUser(s, a, id, input, isEmail, now).value.0;
    FilterKeepsAll(s.edges, (e: Edge) => e.user != id);
    assert t.users - {id} == s.users;
  }
}

=== FILE: words.dfy ===
/** `string::words`: a string split at runs of white space, as used by the
    assertion on a user's `name`. */
module Words {

  /** The characters with the Unicode White_Space property. */
  predicate IsWhitespace(c: char)
  {
    ('\t' <= c <= '\r') || c == ' ' || c == '\U{0085}' || c == '\U{00A0}' || c == '\U{1680}' ||
    ('\U{2000}' <= c <= '\U{200A}') || c == '\U{2028}' || c == '\U{2029}' || c == '\U{202F}' ||
    c == '\U{205F}' || c == '\U{3000}'
  }

  /** A word: a non-empty run without white space. */
  predicate IsWord(w: string)
  {
    w != [] && forall j :: 0 <= j < |w| ==> !IsWhitespace(w[j])
  }

  /** The length of the longest prefix of `s` without white space. */
  function WordLength(s: string): (n: nat)
    ensures n <= |s|
    ensures forall i :: 0 <= i < n ==> !IsWhitespace(s[i])
    ensures n < |s| ==> IsWhitespace(s[n])
  {
    if s == [] || IsWhitespace(s[0]) then 0 else 1 + WordLength(s[1..])
  }

  /** The words of `s`, left to right. */
  function Split(s: string): (r: seq<string>)
    ensures forall i :: 0 <= i < |r| ==> IsWord(r[i])
    decreases |s|
  {
    if s == [] then []
    else if IsWhitespace(s[0]) then Split(s[1..])
    else
      var n := WordLength(s);
      [s[..n]] + Split(s[n..])
  }

  /** Some character of `s` is not white space. */
  predicate HasWord(s: string)
  {
    exists i :: 0 <= i < |s| && !IsWhitespace(s[i])
  }

  /** Two non-white characters of `s` have white space between them. */
  ghost predicate HasTwoWords(s: string)
  {
    exists i, j, k :: TwoWordsAt(s, i, j, k)
  }

  /** A string has a word exactly when it is not all white space. */
  lemma {:induction false} SplitNonEmpty(s: string)
    ensures |Split(s)| > 0 <==> HasWord(s)
    decreases |s|
  {
    if s != [] && IsWhitespace(s[0]) {
      var t := s[1..];
      SplitNonEmpty(t);
      if HasWord(s) {
        var i :| 0 <= i < |s| && !IsWhitespace(s[i]);
        assert t[i - 1] == s[i];
      }
      if HasWord(t) {
        var i :| 0 <= i < |t| && !IsWhitespace(t[i]);
        assert s[i + 1] == t[i];
      }
    } else if s != [] {
      assert !IsWhitespace(s[0]);
    }
  }

  /** A triple of positions witnessing HasTwoWords. */
  predicate TwoWordsAt(s: string, i: int, j: int, k: int)
  {
    0 <= i < j < k < |s| && !IsWhitespace(s[i]) && IsWhitespace(s[j]) && !IsWhitespace(s[k])
  }

  /** Leading white space changes neither side of SplitTwo. */
  lemma ShiftTwoWords(s: string)
    requires s != [] && IsWhitespace(s[0])
    ensures HasTwoWords(s) <==> HasTwoWords(s[1..])
  {
    var t := s[1..];
    if HasTwoWords(s) {
      var i, j, k :| TwoWordsAt(s, i, j, k);
      assert i != 0;
      assert t[i - 1] == s[i] && t[j - 1] == s[j] && t[k - 1] == s[k];
      assert TwoWordsAt(t, i - 1, j - 1, k - 1);
    }
    if HasTwoWords(t) {
      var i, j, k :| TwoWordsAt(t, i, j, k);
      assert s[i + 1] == t[i] && s[j + 1] == t[j] && s[k + 1] == t[k];
      assert TwoWordsAt(s, i + 1, j + 1, k + 1);
    }
  }

  /** After a leading word, a second word exists exactly when the rest
      holds a non-white character. */
  lemma AfterFirstWord(s: string)
    requires s != [] && !IsWhitespace(s[0])
    ensures HasTwoWords(s) <==> HasWord(s[WordLength(s)..])
  {
    var n := WordLength(s);
    var t := s[n..];
    if HasWord(t) {
      var k :| 0 <= k < |t| && !IsWhitespace(t[k]);
      assert t[0] == s[n] && t[k] == s[n + k];
      assert TwoWordsAt(s, 0, n, n + k);
    }
    if HasTwoWords(s) {
      var i, j, k :| TwoWordsAt(s, i, j, k);
      assert j >= n;
      assert t[k - n] == s[k];
    }
  }

  /** A string splits into more than one word exactly when two non-white
      characters are separated by white space. */
  lemma {:induction false} SplitTwo(s: string)
    ensures |Split(s)| > 1 <==> HasTwoWords(s)
    decreases |s|
  {
    if s == [] {
    } else if IsWhitespace(s[0]) {
      SplitTwo(s[1..]);
      ShiftTwoWords(s);
    } else {
      var n := WordLength(s);
      assert Split(s) == [s[..n]] + Split(s[n..]);
      SplitNonEmpty(s[n..]);
      AfterFirstWord(s);
    }
  }

  /** The `name` ASSERT: `array::len(string::words($value)) > 1`. */
  function NameAccepted(name: string): (ok: bool)
    ensures ok <==> HasTwoWords(name)
  {
    SplitTwo(name);
    |Split(name)| > 1
  }
}
